=== FILE: README.md ===
# meowCensor audio surgery, in Dafny

meowCensor replaces the swear words of a recording with cat meows. This
project models two parts of it.

- The audio surgeon, `splice_audio` in `agents/audio_surgeon_agent.py`. It
  sorts the censor intervals and converts their times to milliseconds. It
  then rebuilds the recording with a cursor. The untouched audio before an
  interval is copied. The interval itself gets the library meow whose
  duration is nearest to it. That meow is matched to the word's peak
  loudness, time-stretched at a clamped speed, and overlaid onto a silent bed
  exactly as long as the interval. The audio after the last interval closes
  the output. The file is saved as `<stem>_censored.wav` in the project root.
- The library preparation script, `prepare-library.py`. It turns Freesound
  results into raw file names (`<id>_<sanitised name>.mp3`). It collects at
  most 50 previews and derives the processed `.wav` names. It writes the meow
  database only when at least one sound survives processing.

Audio is a sequence of 16-bit samples, one per millisecond. This is the unit
in which pydub measures lengths and slices. Slicing follows Python: both ends
are clamped, and a reversed range is empty. The pydub operations whose
numerics do not matter are parameters (`Dsp`): decibel conversion,
`apply_gain` and `speedup`. So are librosa and soundfile (`Analysis`) and the
Unicode `str.isalnum` (`isAlnum`). The filesystem is a map from path to
content.

Modules:

- `Pydub`: slicing, overlay and loudness.
- `Paths`: `basename`, `splitext` and `join`.
- `Sorting`: the stable `list.sort`.
- `Selector`: `idxmin`.
- `Surgeon`: one interval, the loop and the entry point.
- `Invariants`: what the loop guarantees on well-formed input.
- `SkipPolicy`: skipped intervals, as written and corrected.
- `Library`: the preparation script.
- `Catalog`, `DataModels` and `Wrappers` hold shared types.

Three behaviours of the code are easy to misread:

- A skipped interval does not shorten the output. Line 73 has already
  appended the audio between the cursor and the interval's start when the
  skip happens, and line 131 is never reached. The cursor stays put, so the
  next interval or the closing tail (line 134) appends that audio again (see
  Findings).
- An interval whose milliseconds give no positive duration is skipped at
  lines 80-81, after line 73 has appended the audio before it. It repeats
  that audio in the same way.
- An empty meow database is not rejected when it is loaded. `idxmin` raises
  a `ValueError` at line 86 only when an interval of positive length reaches
  it. That exception escapes `splice_audio`, which is the `Uncaught` outcome
  here. With no such interval, the call succeeds. A table without a
  `duration_seconds` column raises a `KeyError` at line 85 in the same way,
  and a non-empty one without a `path` column raises at line 89.

## Model

| member | source | states |
|---|---|---|
| Pydub.Silent | agents/audio_surgeon_agent.py:116 | the silent bed has exactly the requested number of milliseconds, with zero peak and zero energy, so pydub measures both its `max_dBFS` and its `dBFS` as `-inf` |
| Pydub.Slice | agents/audio_surgeon_agent.py:73 | `seg[a:b]` holds the samples from position `a` on, as many as the range overlaps the segment after clamping |
| Pydub.Tail | agents/audio_surgeon_agent.py:134 | `seg[a:]` holds every sample from position `a` to the end, and nothing when `a` is past the end |
| Pydub.SliceLength | agents/audio_surgeon_agent.py:73 | a clamped slice is as long as the overlap of the range with the segment, and is the plain subsequence when the range lies inside |
| Pydub.SliceJoin | agents/audio_surgeon_agent.py:73 | two adjacent slices together are the slice over both ranges, so copying up to a cursor and on from it loses nothing |
| Pydub.TailFromStart | agents/audio_surgeon_agent.py:134 | with the cursor still at 0, the trailing copy is the whole source |
| Pydub.Mix | agents/audio_surgeon_agent.py:126 | a mixed sample is the 16-bit value closest to the sum of the two samples, and the sum itself whenever it fits |
| Pydub.Overlay | agents/audio_surgeon_agent.py:126 | the overlay is exactly as long as the bed; where both have audio the samples are mixed, and the bed is kept where the top has none |
| Pydub.OverlayOntoSilence | agents/audio_surgeon_agent.py:115-126 | a meow overlaid on silence comes out cut to the bed's length when longer, and padded with silence when shorter |
| Pydub.Peak | agents/audio_surgeon_agent.py:107 | the peak bounds every sample's magnitude and is reached by one of them; it is 0 for an empty segment |
| Pydub.AudibleHasPeak | agents/audio_surgeon_agent.py:104-107 | a word that pydub does not treat as silent has a non-zero peak, so its `max_dBFS` is finite |
| Pydub.IsRmsSilent | agents/audio_surgeon_agent.py:104 | a segment is silent to pydub exactly when it is empty or its integer rms, the whole part of sqrt(sum of squares / length), is 0 |
| Pydub.SilenceIsRmsSilent | agents/audio_surgeon_agent.py:104 | digital silence has `dBFS == -inf` |
| Pydub.Minus | agents/audio_surgeon_agent.py:107 | the peak difference is finite exactly when the meow's level is, and adding that level back then gives the word's level; subtracting `-inf` gives `+inf` and subtracting `+inf` gives `-inf` |
| Pydub.MaxDbfs | agents/audio_surgeon_agent.py:107 | `max_dBFS` is `-inf` exactly when the peak is 0, is never `+inf`, and is otherwise the peak in decibels |
| Paths.LastIndexOf | agents/audio_surgeon_agent.py:138 | the index found holds the character and no later index does; -1 means the character is absent |
| Paths.Basename | agents/audio_surgeon_agent.py:89 | a basename never holds a separator |
| Paths.BasenameIsLastComponent | agents/audio_surgeon_agent.py:138 | the basename is what the path ends with, right after its last separator |
| Paths.BasenameOfJoin | prepare-library.py:123-124 | the basename of `dir/name` is `name` for a name without separators |
| Paths.BasenameOfName | prepare-library.py:123 | a name without separators is its own basename |
| Paths.Join | agents/audio_surgeon_agent.py:89-90 | joining a name without separators onto any directory gives a path whose basename is that name and which starts with the directory |
| Paths.SplitExt | agents/audio_surgeon_agent.py:138 | root plus extension is the name; the extension is empty or one dot followed by no other dot; it is non-empty exactly when the last dot follows a non-dot character |
| Paths.Stem | prepare-library.py:123 | the stem is a prefix of the name and holds no separator |
| Paths.SplitExtOfDottedName | prepare-library.py:123 | splitting `x` plus a one-dot extension gives back `x` and the extension when `x` has no dots |
| Sorting.InsertPermutes | agents/audio_surgeon_agent.py:59 | insertion adds exactly the new element and loses nothing |
| Sorting.InsertSorted | agents/audio_surgeon_agent.py:59 | insertion into a sorted list keeps it sorted |
| Sorting.SortBy | agents/audio_surgeon_agent.py:59 | the sorted intervals are in non-decreasing start order and are a rearrangement of the input |
| Sorting.InsertKeepsTies | agents/audio_surgeon_agent.py:59 | insertion puts the new element before every element with the same key |
| Sorting.SortIsStable | agents/audio_surgeon_agent.py:59 | intervals with equal start times keep their relative order, as Python's stable sort promises |
| Sorting.SortSortedIsIdentity | agents/audio_surgeon_agent.py:59 | an already sorted list is left as it is |
| Selector.Distance | agents/audio_surgeon_agent.py:85 | a row's distance is the absolute difference of its duration from the needed one: never negative, one of the two signed differences, and zero exactly for an exact match |
| Selector.NearestFrom | agents/audio_surgeon_agent.py:85-86 | the scan returns a row at least as close as every row and strictly closer than every row before it |
| Selector.Nearest | agents/audio_surgeon_agent.py:85-86 | there is no choice exactly when the database is empty; otherwise the choice is the first row of minimal duration difference |
| Selector.FirstNearestIsUnique | agents/audio_surgeon_agent.py:86 | only one row can be the first nearest, so ties go to the earliest row |
| Selector.NearestExample | agents/audio_surgeon_agent.py:85-86 | a 1.3 s word gets the 1.5 s meow rather than the 0.5 s one |
| Surgeon.ToMs | agents/audio_surgeon_agent.py:69-70 | the milliseconds are the largest whole number not above the time times 1000 |
| Surgeon.ToMsMonotone | agents/audio_surgeon_agent.py:59-70 | a later start time never gives an earlier millisecond, so sorting by seconds orders the milliseconds |
| Surgeon.SpanOf | agents/audio_surgeon_agent.py:69-70 | each end of the span is its time in seconds times 1000, truncated to a whole millisecond, so a word that does not end before it starts gives a span that does not either |
| Surgeon.Spans | agents/audio_surgeon_agent.py:59-70 | one span per interval, in order, and intervals sorted by start time give spans sorted by start, so the loop meets them in chronological order |
| Surgeon.GainFor | agents/audio_surgeon_agent.py:103-110 | no gain exactly when the word is silent to pydub; otherwise the gain is the word's peak dBFS minus the meow's, and `+inf` for a silent meow |
| Surgeon.Normalize | agents/audio_surgeon_agent.py:103-113 | a meow replacing a silent word is used unchanged |
| Surgeon.PlaybackSpeed | agents/audio_surgeon_agent.py:119-122 | the speed always lies in [0.5, 2.0]; it equals the length ratio exactly when that ratio is in range, and is the nearer bound otherwise |
| Surgeon.FitToDuration | agents/audio_surgeon_agent.py:115-126 | the replacement is exactly as long as the interval; an empty meow gives pure silence; otherwise the stretched meow is cut or padded with silence, and it fails exactly when `speedup` raises |
| Surgeon.MeowPathFor | agents/audio_surgeon_agent.py:85-90 | the meow file is the nearest row's basename in the processed library; there is none exactly when the database is empty |
| Surgeon.Operate | agents/audio_surgeon_agent.py:76-94 | an interval is skipped for duration exactly when it has no positive length; otherwise a table without `duration_seconds` raises, then an empty table raises, then a table without `path` raises; a missing meow file skips; a replacement is as long as the interval and comes from an existing audio file |
| Surgeon.OperateOn | agents/audio_surgeon_agent.py:92-97 | a missing file skips and names the file; an undecodable one raises; a replacement spans the interval |
| Surgeon.Refit | agents/audio_surgeon_agent.py:99-128 | a decoded meow either becomes a replacement exactly as long as the interval or raises in `speedup`, and it raises exactly when the gain-matched meow is non-empty and `speedup` fails on it; a silent word with an empty meow is replaced by pure silence |
| Surgeon.MeowLibraryPath | agents/audio_surgeon_agent.py:23 | the meow library is a directory named `processed` under the project root |
| Surgeon.EngineFitsSpan | agents/audio_surgeon_agent.py:115-128 | every replacement the agent builds spans exactly its interval |
| Surgeon.Reconstruct | agents/audio_surgeon_agent.py:61-134 | the output only ever grows: what was appended before is never changed |
| Surgeon.OutputPath | agents/audio_surgeon_agent.py:138-140 | the output file is named after the source's stem plus `_censored.wav` and sits under the project root |
| Surgeon.SpliceAudio | agents/audio_surgeon_agent.py:27-149 | a missing source or database fails before anything happens and leaves the list alone; once both load, the caller's list is sorted in place; a save goes to the output path; the returned path is empty exactly when the call fails; with no intervals the saved audio is the source |
| Invariants.AllReplacedTail | agents/audio_surgeon_agent.py:67 | if every interval is replaced, every remaining one is |
| Invariants.OutsideAllTail | agents/audio_surgeon_agent.py:67 | a millisecond outside every interval is outside every remaining one |
| Invariants.WellFormedPermutation | agents/audio_surgeon_agent.py:59 | sorting keeps intervals non-overlapping and inside the source |
| Invariants.SortedWellFormedIsChain | agents/audio_surgeon_agent.py:59-73 | sorted, non-overlapping intervals never start before the cursor the loop has reached |
| Invariants.ReplacedStep | agents/audio_surgeon_agent.py:73-131 | a replaced interval appends the audio before it and its replacement, and moves the cursor to its end |
| Invariants.ReconstructIsExpected | agents/audio_surgeon_agent.py:61-134 | when every interval is replaced, the loop completes and appends the untouched audio and replacements in turn |
| Invariants.ExpectedLength | agents/audio_surgeon_agent.py:73-134 | on a chain of replaced intervals the loop appends exactly as much audio as the source has from the cursor on |
| Invariants.ExpectedAtHead | agents/audio_surgeon_agent.py:73-128 | before the first interval the source is copied; inside it the replacement is placed at its offset |
| Invariants.ExpectedAtRest | agents/audio_surgeon_agent.py:131 | after the first interval the output continues where the rest of the loop puts it |
| Invariants.ExpectedKeeps | agents/audio_surgeon_agent.py:73-134 | every millisecond outside the intervals is copied to the same offset |
| Invariants.ExpectedInside | agents/audio_surgeon_agent.py:128-131 | every millisecond inside an interval holds that interval's replacement at the interval's offset |
| Invariants.SpliceAudioSavesExpected | agents/audio_surgeon_agent.py:57-146 | once both files load, every interval is replaced (whatever order the caller lists them in) and the export succeeds, the call saves the closed-form output over the sorted intervals |
| Invariants.SortedSpans | agents/audio_surgeon_agent.py:59-70 | well-formed intervals, once sorted, form a chain, and all are still replaced |
| Invariants.SortedAllReplaced | agents/audio_surgeon_agent.py:59 | sorting does not change which intervals get a replacement |
| Invariants.SortedSpansOutside | agents/audio_surgeon_agent.py:59 | a millisecond outside every interval is outside every sorted one |
| Invariants.WellFormedOutput | agents/audio_surgeon_agent.py:59-134 | for non-overlapping, positive-length intervals inside the source, each replaced (none skipped, none raising) by audio exactly as long as the interval, the output over the sorted intervals is as long as the source and keeps the audio outside the intervals |
| Invariants.ChainKeeps | agents/audio_surgeon_agent.py:62-134 | on a chain from the start whose spans are all replaced by audio exactly as long as the span, the output is as long as the source and keeps the audio outside the spans |
| Invariants.ChainInside | agents/audio_surgeon_agent.py:116-131 | on a chain from the start each span holds its replacement |
| Invariants.WellFormedInside | agents/audio_surgeon_agent.py:59-131 | one interval, wherever it sits in the caller's list, holds its own replacement in the output at the same offset |
| Invariants.WellFormedInsideAll | agents/audio_surgeon_agent.py:59-131 | for every interval of the caller's list and every millisecond inside it, the output holds that interval's replacement at the same offset |
| Invariants.SpliceAudioPreservesLength | agents/audio_surgeon_agent.py:57-146 | for non-overlapping, positive-length intervals inside the source that all get a meow, the saved audio is exactly as long as the source and every millisecond outside the intervals is in place |
| Invariants.SpliceAudioReplacesIntervals | agents/audio_surgeon_agent.py:67-131 | for the same inputs, every millisecond inside an interval holds the meow prepared for that interval at the interval's own offset |
| SkipPolicy.ChainFromEarlier | agents/audio_surgeon_agent.py:131 | intervals that do not start before a cursor do not start before an earlier one |
| SkipPolicy.SkipRepeatsAudio | agents/audio_surgeon_agent.py:73-94 | when the first interval is skipped, for no duration or for a missing meow, and the rest are replaced, the audio before it is emitted twice and the output is longer than the source by exactly that much |
| SkipPolicy.SkipRepeatsExample | agents/audio_surgeon_agent.py:92-94 | on three milliseconds with the middle one skipped, the output is four milliseconds long and repeats the first |
| SkipPolicy.NoDurationRepeatsExample | agents/audio_surgeon_agent.py:69-81 | with the agent's own engine, a word from 0.0015 s to 0.0019 s truncates to no duration and is skipped, and the first of three milliseconds is emitted twice |
| SkipPolicy.ReconstructFixed | agents/audio_surgeon_agent.py:72-134 | the corrected loop's output only ever grows |
| SkipPolicy.NoCrashTail | agents/audio_surgeon_agent.py:67 | if no interval raises, no remaining one does |
| SkipPolicy.FixedPreservesLength | agents/audio_surgeon_agent.py:73-134 | with the corrected skip policy, the output is as long as the source whatever is skipped, as long as nothing raises |
| SkipPolicy.FixedAllSkippedKeepsSource | agents/audio_surgeon_agent.py:92-94 | with the corrected policy, if every interval is skipped the output is the source unchanged |
| SkipPolicy.FixedAgreesWithoutSkips | agents/audio_surgeon_agent.py:73-131 | when every interval is replaced (none skipped, none raising) the corrected loop and the loop as written produce the same result |
| SkipPolicy.FixedRaisesIffCrash | agents/audio_surgeon_agent.py:86-125 | the corrected loop raises exactly when some interval raises |
| SkipPolicy.RaisesIffCrash | agents/audio_surgeon_agent.py:86-125 | the loop as written raises exactly when some interval raises; a skip never stops it |
| SkipPolicy.SomeCrashTail | agents/audio_surgeon_agent.py:67 | when the first interval does not raise, an interval raises exactly when a later one does |
| Library.KeepSafe | prepare-library.py:89 | the filtered name holds only alphanumerics, spaces and underscores, and is the original name with characters deleted |
| Library.KeepSafeKeepsEverySafeChar | prepare-library.py:89 | every alphanumeric, space and underscore of the name survives, as often as it occurs |
| Library.IsSpace | prepare-library.py:89 | space, tab and newline are whitespace to `rstrip`; underscore, digits and ASCII letters are not |
| Library.RStrip | prepare-library.py:89 | the stripped name is a prefix that does not end in whitespace, and only whitespace was removed |
| Library.SafeName | prepare-library.py:89 | the sanitised name keeps only alphanumerics, spaces and underscores, in their original order, and has no trailing space |
| Library.ReplaceSpaces | prepare-library.py:90 | replacing spaces keeps the length, turns each space into `_`, and leaves every other character in place |
| Library.NatToString | prepare-library.py:90 | an id renders as a non-empty string of decimal digits |
| Library.NatToStringRoundTrip | prepare-library.py:90 | the rendering reads back as the same id |
| Library.RawFilename | prepare-library.py:90 | a raw file name holds no spaces, ends in `.mp3`, and its leading digits read back as the Freesound id, followed by `_` |
| Library.RawFilenameHasNoSlash | prepare-library.py:89-90 | when `/` is not alphanumeric, a raw file name holds no separator |
| Library.RawPath | prepare-library.py:91 | when `/` is not alphanumeric, the download path is the raw file name inside the raw audio directory |
| Library.SafeNameHasNoDotOrSlash | prepare-library.py:89 | the sanitised name holds neither dots nor separators |
| Library.RawFilenameShape | prepare-library.py:89-90 | the processed name derived from a raw path is the same `<id>_<name>` with `.wav` for `.mp3` |
| Library.ProcessedOfRawName | prepare-library.py:123 | `<digits>_<safe>.mp3` under the raw directory becomes `<digits>_<safe>.wav` |
| Library.ProcessedFilename | prepare-library.py:123 | the processed name is a plain file name ending in `.wav`, whose part before `.wav` is the raw path's base name with its extension removed, so putting the raw extension back after that part gives the raw base name |
| Library.TryDownload | prepare-library.py:87-99 | one result appends its own path, and nothing else, exactly when its file is already on disk or its preview downloads; a downloaded preview joins the files on disk, and otherwise they are unchanged |
| Library.DownloadAll | prepare-library.py:83-99 | without the bound, the loop collects at most one path per result |
| Library.FailedDownloadAddsNothing | prepare-library.py:94-99 | a result whose preview cannot be retrieved and is not on disk adds nothing, and the loop goes on |
| Library.DownloadPrefix | prepare-library.py:83-99 | trying fewer results collects a prefix of what trying more collects |
| Library.DownloadPrefixStep | prepare-library.py:83-99 | the prefix relation extends one result back |
| Library.TryDownloadExtends | prepare-library.py:97 | a step only ever appends to the collected paths |
| Library.DownloadAllStep | prepare-library.py:83-99 | trying one more result is one more step of the loop body |
| Library.DownloadPreviews | prepare-library.py:81-99 | never more than 50 paths are collected; they are the first 50 the unbounded loop would collect, or all of them |
| Library.StopIsTruncation | prepare-library.py:85-86 | where the loop breaks, it holds the first 50 paths of the unbounded loop |
| Library.ProcessOne | prepare-library.py:104-136 | a row exists exactly when the file loads at a positive rate, trims to something, gets a pitch estimate and its processed copy can be written; its name is the raw stem plus `.wav`; its path is that name in the processed directory; its duration is the trimmed length divided by the sample rate, so it is positive; its pitch is the estimate |
| Library.CatalogRows | prepare-library.py:103-139 | at most one row per raw file, each with a positive duration and a path ending in its file name |
| Library.EmptyTrimNoRow | prepare-library.py:112-114 | a file that trims to nothing contributes no row |
| Library.PrepareLibrary | prepare-library.py:142-153 | the database is written exactly when some row exists; it then holds the rows of the downloaded files, at most 50 of them |
| Library.DownloadPreviewsSpec | prepare-library.py:81-99 | the collected paths never exceed the bound |

## Left out

- Decoding, `ratio_to_db`, `apply_gain`, `speedup` and `export` are
  floating-point DSP or file I/O. They are parameters. `speedup` may fail,
  and the export is one boolean in the environment.
- Stereo, sample widths other than 16 bits, and frame rates: a segment is
  mono, one sample per millisecond.
- Times are non-negative reals. IEEE rounding in `int(t * 1000)` is not
  modelled, and neither are negative timestamps.
- Overlapping intervals: the length and placement lemmas require intervals
  that do not overlap. The loop itself is modelled for any input.
- Surgeon.Normalize: states only the silent-word case. `apply_gain` is a
  parameter, so nothing is promised about the gained meow. In particular,
  Surgeon.Refit promises silence for an empty meow only over a silent word,
  although Surgeon.FitToDuration does for any empty normalised meow.
- Selector.Nearest: durations and their differences are exact reals, not
  floats. Where two rows' float differences round to a tie or swap order
  (rows of 0.1 s and 0.3 s for a 200 ms word), pandas may pick the other
  row. The speed ratio in Surgeon.PlaybackSpeed is likewise exact, so a
  ratio that rounds across 0.5 or 2.0 may be clamped differently.
- Library.RawPath: says nothing when `isAlnum` accepts `/`, since the name
  can then hold separators. Python's `str.isalnum` rejects `/`, but the
  predicate is a parameter.
- Library.RawFilenameShape: requires that `isAlnum` holds for neither '.'
  nor '/', as Python's `str.isalnum` does not. The predicate is a
  parameter, so the fact is a precondition.
- Library.DownloadPreviews: is stated for any naming rule. The script's own
  rule, `Library.PathOf`, is what Library.PrepareLibrary passes.
- The Freesound search and client, `tqdm`, and the `print` logging are left
  out. So are the directory clean-up, the CSV writer and librosa's trim and
  pYIN pitch. Trim and pitch are functions in `Analysis`, and a failing
  load, pitch estimate or write is a skipped file.
- The UI, transcriber and censor agents, the helper scripts and the tests are
  not part of this model. The tests' meow database writes a `duration` column
  while the agent reads `duration_seconds`; in the model such a table makes
  the first interval of positive length raise `MissingColumn`.
- A CSV table's rows are read as database rows whatever their columns; the
  columns the splicer reads are checked against the header, and the values
  of other columns, and pandas' type inference, are not modelled.

## Findings

| source | as written | input that shows it | evidently intended | confidence | as-written member | corrected member |
|---|---|---|---|---|---|---|
| agents/audio_surgeon_agent.py:73-94 | the audio before an interval is appended (line 73) before the skip checks (lines 80-81, 92-94), and a skip leaves `last_end_time_ms` where it was, so the next slice or the tail appends that audio again | a 3 ms source `[1, 2, 3]` with one interval from 0.001 s to 0.002 s whose meow file is missing: the output is `[1, 1, 2, 3]`, 4 ms long | a skipped interval keeps its original audio, once, and the output stays as long as the source | not executed | SkipPolicy.SkipRepeatsExample | SkipPolicy.FixedPreservesLength |

`SkipPolicy.SkipRepeatsAudio` gives the general as-written statement: the
output grows by the gap between the cursor and the skipped interval. The
corrected loop, `SkipPolicy.ReconstructFixed`, tests the skip conditions
before appending. It keeps the length of the source whatever is skipped
(`SkipPolicy.FixedPreservesLength`). With every interval skipped, it returns
the source unchanged (`SkipPolicy.FixedAllSkippedKeepsSource`).
`SkipPolicy.FixedAgreesWithoutSkips` shows it is the same loop when every
interval is replaced, none skipped and none raising. Hence `SpliceAudioPreservesLength` and
`SpliceAudioReplacesIntervals` hold for the corrected loop as well.
`Surgeon.SpliceAudio` keeps the loop as written.

=== FILE: catalog.dfy ===
/** The meow database: one row per processed library sound, written by the
    library preparation script and read by the splicer. */
module Catalog {

  /** A row of `meow_database.csv`. */
  datatype Row = Row(filename: string, path: string, durationSeconds: real, averagePitchHz: real)
}

=== FILE: datamodels.dfy ===
/** The record the transcriber produces and the splicer consumes. */
module DataModels {

  /** A time offset in seconds. Timestamps from the transcriber are never
      negative, and the splicer is modelled for those only. */
  type Seconds = t: real | t >= 0.0

  /** One transcribed word and the span of audio it occupies; a censor
      interval is a `Word` picked out for replacement. */
  datatype Word = Word(word: string, startTime: Seconds, endTime: Seconds)
}

=== FILE: invariants.dfy ===
/** What the reconstruction loop guarantees for well-formed intervals: the
    output is exactly as long as the source, the untouched audio is copied
    to the same position, and each replacement lands exactly on the span it
    replaces. */
module Invariants {

  import opened Pydub
  import opened Sorting
  import opened DataModels
  import opened Surgeon

  /** Processing `spans` from `cursor` on a source of `n` milliseconds never
      goes backwards: each span starts at or after the cursor, has a positive
      length, and ends inside the source. */
  predicate Chain(spans: seq<Span>, cursor: nat, n: nat)
    decreases |spans|
  {
    |spans| == 0 ||
    (&& cursor <= spans[0].start < spans[0].end <= n
     && Chain(spans[1..], spans[0].end, n))
  }

  /** Every span gets a replacement: none is skipped and none raises. */
  predicate AllReplaced(engine: Engine, spans: seq<Span>)
  {
    forall i :: 0 <= i < |spans| ==> engine(spans[i].start, spans[i].end).Replaced?
  }

  /** Millisecond `p` lies in none of the spans. */
  predicate OutsideAll(spans: seq<Span>, p: nat)
  {
    forall i :: 0 <= i < |spans| ==> !(spans[i].start <= p < spans[i].end)
  }

  predicate Disjoint(a: Word, b: Word)
  {
    EndMs(a) <= StartMs(b) || EndMs(b) <= StartMs(a)
  }

  /** Intervals in any order, each of positive length inside a source of `n`
      milliseconds, no two of them overlapping. */
  predicate WellFormed(intervals: seq<Word>, n: nat)
  {
    && (forall i :: 0 <= i < |intervals| ==> StartMs(intervals[i]) < EndMs(intervals[i]) <= n)
    && (forall i, j :: 0 <= i < j < |intervals| ==> Disjoint(intervals[i], intervals[j]))
  }

  lemma AllReplacedTail(engine: Engine, spans: seq<Span>)
    requires |spans| > 0 && AllReplaced(engine, spans)
    ensures AllReplaced(engine, spans[1..])
  {
    forall i | 0 <= i < |spans[1..]|
      ensures engine(spans[1..][i].start, spans[1..][i].end).Replaced?
    {
      assert spans[1..][i] == spans[i + 1];
    }
  }

  lemma OutsideAllTail(spans: seq<Span>, p: nat)
    requires |spans| > 0 && OutsideAll(spans, p)
    ensures OutsideAll(spans[1..], p)
  {
    forall i | 0 <= i < |spans[1..]|
      ensures !(spans[1..][i].start <= p < spans[1..][i].end)
    {
      assert spans[1..][i] == spans[i + 1];
    }
  }

  // ---------------------------------------------------------------------
  // From unsorted, non-overlapping input to a chain

  lemma {:induction false} TwoPositionsTwoCopies<T>(ys: seq<T>, i: nat, j: nat)
    requires i < j < |ys| && ys[i] == ys[j]
    ensures multiset(ys)[ys[i]] >= 2
  {
    assert ys == ys[..j] + ys[j..];
    assert ys[i] in ys[..j];
    assert ys[j] in ys[j..];
  }

  lemma {:induction false} TwoCopiesTwoPositions<T>(xs: seq<T>, v: T)
    requires multiset(xs)[v] >= 2
    ensures exists k, l :: 0 <= k < l < |xs| && xs[k] == v && xs[l] == v
  {
    assert xs == [xs[0]] + xs[1..];
    if xs[0] == v {
      assert v in multiset(xs[1..]);
      var l :| 0 <= l < |xs[1..]| && xs[1..][l] == v;
      assert xs[l + 1] == v;
    } else {
      TwoCopiesTwoPositions(xs[1..], v);
      var k, l :| 0 <= k < l < |xs[1..]| && xs[1..][k] == v && xs[1..][l] == v;
      assert xs[k + 1] == v && xs[l + 1] == v;
    }
  }

  /** Well-formedness does not depend on the order of the intervals. */
  lemma WellFormedPermutation(xs: seq<Word>, ys: seq<Word>, n: nat)
    requires multiset(xs) == multiset(ys) && WellFormed(xs, n)
    ensures WellFormed(ys, n)
  {
    forall i | 0 <= i < |ys|
      ensures StartMs(ys[i]) < EndMs(ys[i]) <= n
    {
      assert ys[i] in multiset(xs);
    }
    forall i, j | 0 <= i < j < |ys|
      ensures Disjoint(ys[i], ys[j])
    {
      assert ys[i] in multiset(xs) && ys[j] in multiset(xs);
      var k :| 0 <= k < |xs| && xs[k] == ys[i];
      var l :| 0 <= l < |xs| && xs[l] == ys[j];
      if ys[i] == ys[j] {
        TwoPositionsTwoCopies(ys, i, j);
        TwoCopiesTwoPositions(xs, ys[i]);
        var k', l' :| 0 <= k' < l' < |xs| && xs[k'] == ys[i] && xs[l'] == ys[i];
        assert Disjoint(xs[k'], xs[l']);
      } else if k < l {
        assert Disjoint(xs[k], xs[l]);
      } else {
        assert Disjoint(xs[l], xs[k]);
      }
    }
  }

  /** Sorted by start time, non-overlapping intervals that all start at or
      after `cursor` form a chain from `cursor`. */
  lemma {:induction false} SortedWellFormedIsChain(intervals: seq<Word>, cursor: nat, n: nat)
    requires SortedBy(intervals, ByStart) && WellFormed(intervals, n)
    requires forall i :: 0 <= i < |intervals| ==> cursor <= StartMs(intervals[i])
    ensures Chain(Spans(intervals), cursor, n)
  {
    if |intervals| > 0 {
      var first := intervals[0];
      var rest := intervals[1..];
      forall i | 0 <= i < |rest|
        ensures EndMs(first) <= StartMs(rest[i])
      {
        assert rest[i] == intervals[i + 1];
        ToMsMonotone(first.startTime, rest[i].startTime);
        assert Disjoint(intervals[0], intervals[i + 1]);
      }
      assert SortedBy(rest, ByStart);
      assert WellFormed(rest, n) by {
        forall i, j | 0 <= i < j < |rest|
          ensures Disjoint(rest[i], rest[j])
        {
          assert rest[i] == intervals[i + 1] && rest[j] == intervals[j + 1];
        }
      }
      SortedWellFormedIsChain(rest, EndMs(first), n);
      assert Spans(intervals)[1..] == Spans(rest);
    }
  }

  // ---------------------------------------------------------------------
  // The loop on a chain

  /** What a run in which every span is replaced appends to the output: the
      audio before each span followed by the span's replacement, then the
      rest of the source. */
  function Expected(source: Segment, engine: Engine, spans: seq<Span>, cursor: nat): Segment
    decreases |spans|
  {
    if |spans| == 0 then Tail(source, cursor)
    else
      var s, e := spans[0].start, spans[0].end;
      var op := engine(s, e);
      Slice(source, cursor, s) + (if op.Replaced? then op.segment else []) + Expected(source, engine, spans[1..], e)
  }

  /** One replaced span: its preceding audio and its replacement are
      appended and the cursor moves to its end. */
  lemma ReplacedStep(source: Segment, engine: Engine, spans: seq<Span>, cursor: nat, out: Segment)
    requires |spans| > 0 && engine(spans[0].start, spans[0].end).Replaced?
    ensures Reconstruct(source, engine, spans, cursor, out)
      == Reconstruct(source, engine, spans[1..], spans[0].end,
           out + Slice(source, cursor, spans[0].start) + engine(spans[0].start, spans[0].end).segment)
  {
  }

  /** When every span is replaced the loop completes and appends exactly
      `Expected` to what it had. */
  lemma {:induction false} ReconstructIsExpected(source: Segment, engine: Engine, spans: seq<Span>, cursor: nat, out: Segment)
    requires AllReplaced(engine, spans)
    ensures Reconstruct(source, engine, spans, cursor, out) == Done(out + Expected(source, engine, spans, cursor))
    decreases |spans|
  {
    if |spans| > 0 {
      var s, e := spans[0].start, spans[0].end;
      var mid := Slice(source, cursor, s);
      var seg := engine(s, e).segment;
      var rest := Expected(source, engine, spans[1..], e);
      AllReplacedTail(engine, spans);
      ReplacedStep(source, engine, spans, cursor, out);
      ReconstructIsExpected(source, engine, spans[1..], e, out + mid + seg);
      assert Expected(source, engine, spans, cursor) == mid + seg + rest;
      assert out + mid + seg + rest == out + (mid + seg + rest);
    }
  }

  /** On a chain the appended audio is exactly as long as the source from
      the cursor on. */
  lemma {:induction false} ExpectedLength(source: Segment, engine: Engine, spans: seq<Span>, cursor: nat)
    requires cursor <= |source|
    requires FitsSpan(engine) && Chain(spans, cursor, |source|) && AllReplaced(engine, spans)
    ensures |Expected(source, engine, spans, cursor)| == |source| - cursor
    decreases |spans|
  {
    SliceLength(source, cursor, |source|);
    if |spans| > 0 {
      SliceLength(source, cursor, spans[0].start);
      AllReplacedTail(engine, spans);
      ExpectedLength(source, engine, spans[1..], spans[0].end);
    }
  }

  /** Where a millisecond before the first span's end lands: the audio
      before the span is copied, the span itself holds its replacement. */
  lemma ExpectedAtHead(source: Segment, engine: Engine, spans: seq<Span>, cursor: nat, p: nat)
    requires FitsSpan(engine) && Chain(spans, cursor, |source|) && |spans| > 0
    requires engine(spans[0].start, spans[0].end).Replaced?
    requires cursor <= p < spans[0].end
    ensures p - cursor < |Expected(source, engine, spans, cursor)|
    ensures p < spans[0].start ==> Expected(source, engine, spans, cursor)[p - cursor] == source[p]
    ensures spans[0].start <= p ==>
      Expected(source, engine, spans, cursor)[p - cursor]
        == engine(spans[0].start, spans[0].end).segment[p - spans[0].start]
  {
    var s, e := spans[0].start, spans[0].end;
    var mid := Slice(source, cursor, s);
    var seg := engine(s, e).segment;
    var rest := Expected(source, engine, spans[1..], e);
    SliceLength(source, cursor, s);
    assert Expected(source, engine, spans, cursor) == mid + seg + rest;
    if p < s {
      assert (mid + seg + rest)[p - cursor] == mid[p - cursor];
    } else {
      assert (mid + seg + rest)[p - cursor] == seg[p - s];
    }
  }

  /** A millisecond at or after the first span's end lands where the rest
      of the run puts it. */
  lemma ExpectedAtRest(source: Segment, engine: Engine, spans: seq<Span>, cursor: nat, p: nat)
    requires FitsSpan(engine) && Chain(spans, cursor, |source|) && |spans| > 0
    requires engine(spans[0].start, spans[0].end).Replaced?
    requires spans[0].end <= p && p - spans[0].end < |Expected(source, engine, spans[1..], spans[0].end)|
    ensures p - cursor < |Expected(source, engine, spans, cursor)|
    ensures Expected(source, engine, spans, cursor)[p - cursor]
      == Expected(source, engine, spans[1..], spans[0].end)[p - spans[0].end]
  {
    var s, e := spans[0].start, spans[0].end;
    var mid := Slice(source, cursor, s);
    var seg := engine(s, e).segment;
    var rest := Expected(source, engine, spans[1..], e);
    SliceLength(source, cursor, s);
    assert Expected(source, engine, spans, cursor) == (mid + seg) + rest;
    assert |mid + seg| == e - cursor;
    assert ((mid + seg) + rest)[p - cursor] == rest[p - e];
  }

  /** Audio outside every span is copied verbatim to the same offset. */
  lemma {:induction false} ExpectedKeeps(source: Segment, engine: Engine, spans: seq<Span>, cursor: nat, p: nat)
    requires cursor <= p < |source|
    requires FitsSpan(engine) && Chain(spans, cursor, |source|) && AllReplaced(engine, spans)
    requires OutsideAll(spans, p)
    ensures p - cursor < |Expected(source, engine, spans, cursor)|
    ensures Expected(source, engine, spans, cursor)[p - cursor] == source[p]
    decreases |spans|
  {
    if |spans| == 0 {
      SliceLength(source, cursor, |source|);
      assert Tail(source, cursor) == source[cursor..];
    } else if p < spans[0].end {
      ExpectedAtHead(source, engine, spans, cursor, p);
    } else {
      AllReplacedTail(engine, spans);
      OutsideAllTail(spans, p);
      ExpectedKeeps(source, engine, spans[1..], spans[0].end, p);
      ExpectedAtRest(source, engine, spans, cursor, p);
    }
  }

  /** Inside the `k`-th span the output holds that span's replacement, in
      order and at the span's own offset. */
  lemma {:induction false} ExpectedInside(source: Segment, engine: Engine, spans: seq<Span>, cursor: nat, k: nat, p: nat)
    requires k < |spans| && spans[k].start <= p < spans[k].end
    requires FitsSpan(engine) && Chain(spans, cursor, |source|) && AllReplaced(engine, spans)
    ensures cursor <= p && p - cursor < |Expected(source, engine, spans, cursor)|
    ensures p - spans[k].start < |engine(spans[k].start, spans[k].end).segment|
    ensures Expected(source, engine, spans, cursor)[p - cursor]
      == engine(spans[k].start, spans[k].end).segment[p - spans[k].start]
    decreases |spans|
  {
    if k == 0 {
      ExpectedAtHead(source, engine, spans, cursor, p);
    } else {
      var rest, e := spans[1..], spans[0].end;
      assert rest[k - 1] == spans[k];
      AllReplacedTail(engine, spans);
      ExpectedInside(source, engine, rest, e, k - 1, p);
      var seg := engine(spans[k].start, spans[k].end).segment;
      ExpectedAtRest(source, engine, spans, cursor, p);
      InsideStep(Expected(source, engine, spans, cursor), Expected(source, engine, rest, e), seg, cursor, e, spans[k].start, p);
    }
  }

  /** The index bookkeeping of one step of `ExpectedInside`. */
  lemma InsideStep(whole: Segment, rest: Segment, seg: Segment, cursor: nat, e: nat, start: nat, p: nat)
    requires cursor <= e <= p && start <= p && p - e < |rest| && p - start < |seg|
    requires p - cursor < |whole| && whole[p - cursor] == rest[p - e]
    requires rest[p - e] == seg[p - start]
    ensures whole[p - cursor] == seg[p - start]
  {
  }

  // ---------------------------------------------------------------------
  // The entry point

  /** Once both files load and every interval is replaced, the call saves
      what the loop appends to nothing. */
  lemma SpliceAudioSavesExpected(env: Environment, audioPath: string, censorTimes: seq<Word>, dbPath: string)
    requires Loads(env, audioPath, dbPath) && env.exportSucceeds
    requires AllReplaced(EngineOf(ContextOf(env, audioPath, dbPath)), Spans(censorTimes))
    ensures var ctx := ContextOf(env, audioPath, dbPath);
      SpliceAudio(env, audioPath, censorTimes, dbPath).outcome
        == Saved(OutputPath(env.projectRoot, audioPath),
                 Expected(ctx.source, EngineOf(ctx), Spans(SortBy(censorTimes, ByStart)), 0))
  {
    var ctx := ContextOf(env, audioPath, dbPath);
    var spans := Spans(SortBy(censorTimes, ByStart));
    SortedAllReplaced(EngineOf(ctx), censorTimes);
    ReconstructIsExpected(ctx.source, EngineOf(ctx), spans, 0, []);
    assert [] + Expected(ctx.source, EngineOf(ctx), spans, 0) == Expected(ctx.source, EngineOf(ctx), spans, 0);
  }

  /** The sorted intervals of a well-formed list form a chain, and every one
      of them is replaced when every one of the originals is. */
  lemma SortedSpans(engine: Engine, censorTimes: seq<Word>, n: nat)
    requires WellFormed(censorTimes, n) && AllReplaced(engine, Spans(censorTimes))
    ensures Chain(Spans(SortBy(censorTimes, ByStart)), 0, n)
    ensures AllReplaced(engine, Spans(SortBy(censorTimes, ByStart)))
  {
    var sorted := SortBy(censorTimes, ByStart);
    WellFormedPermutation(censorTimes, sorted, n);
    SortedWellFormedIsChain(sorted, 0, n);
    SortedAllReplaced(engine, censorTimes);
  }

  /** Sorting does not change which intervals get a replacement. */
  lemma SortedAllReplaced(engine: Engine, censorTimes: seq<Word>)
    requires AllReplaced(engine, Spans(censorTimes))
    ensures AllReplaced(engine, Spans(SortBy(censorTimes, ByStart)))
  {
    var sorted := SortBy(censorTimes, ByStart);
    var spans := Spans(sorted);
    forall i | 0 <= i < |spans|
      ensures engine(spans[i].start, spans[i].end).Replaced?
    {
      assert sorted[i] in multiset(censorTimes);
      var j :| 0 <= j < |censorTimes| && censorTimes[j] == sorted[i];
      assert Spans(censorTimes)[j] == spans[i];
    }
  }

  /** A millisecond outside every original interval is outside every sorted
      one. */
  lemma SortedSpansOutside(censorTimes: seq<Word>, p: nat)
    requires OutsideAll(Spans(censorTimes), p)
    ensures OutsideAll(Spans(SortBy(censorTimes, ByStart)), p)
  {
    var sorted := SortBy(censorTimes, ByStart);
    var spans := Spans(sorted);
    forall i | 0 <= i < |spans|
      ensures !(spans[i].start <= p < spans[i].end)
    {
      assert sorted[i] in multiset(censorTimes);
      var j :| 0 <= j < |censorTimes| && censorTimes[j] == sorted[i];
      assert Spans(censorTimes)[j] == spans[i];
    }
  }

  /** The loop's output for well-formed intervals that all get a
      replacement, whatever the engine: as long as the source, with every
      millisecond outside the intervals in place. */
  lemma WellFormedOutput(source: Segment, engine: Engine, censorTimes: seq<Word>)
    requires FitsSpan(engine) && WellFormed(censorTimes, |source|)
    requires AllReplaced(engine, Spans(censorTimes))
    ensures |Expected(source, engine, Spans(SortBy(censorTimes, ByStart)), 0)| == |source|
    ensures forall p :: 0 <= p < |source| && OutsideAll(Spans(censorTimes), p) ==>
      Expected(source, engine, Spans(SortBy(censorTimes, ByStart)), 0)[p] == source[p]
  {
    var spans := Spans(SortBy(censorTimes, ByStart));
    SortedSpans(engine, censorTimes, |source|);
    ChainKeeps(source, engine, spans);
    forall p | 0 <= p < |source| && OutsideAll(Spans(censorTimes), p)
      ensures Expected(source, engine, spans, 0)[p] == source[p]
    {
      SortedSpansOutside(censorTimes, p);
    }
  }

  /** On a chain from the start, the output is as long as the source and
      keeps every millisecond outside the spans. */
  lemma ChainKeeps(source: Segment, engine: Engine, spans: seq<Span>)
    requires FitsSpan(engine) && Chain(spans, 0, |source|) && AllReplaced(engine, spans)
    ensures |Expected(source, engine, spans, 0)| == |source|
    ensures forall p :: 0 <= p < |source| && OutsideAll(spans, p) ==> Expected(source, engine, spans, 0)[p] == source[p]
  {
    ExpectedLength(source, engine, spans, 0);
    forall p | 0 <= p < |source| && OutsideAll(spans, p)
      ensures Expected(source, engine, spans, 0)[p] == source[p]
    {
      ExpectedKeeps(source, engine, spans, 0, p);
    }
  }

  /** On a chain from the start, a millisecond inside the `j`-th span holds
      that span's replacement. */
  lemma ChainInside(source: Segment, engine: Engine, spans: seq<Span>, j: nat, sp: Span, p: nat)
    requires FitsSpan(engine) && Chain(spans, 0, |source|) && AllReplaced(engine, spans)
    requires j < |spans| && spans[j] == sp && sp.start <= p < sp.end
    ensures p < |Expected(source, engine, spans, 0)|
    ensures p - sp.start < |engine(sp.start, sp.end).segment|
    ensures Expected(source, engine, spans, 0)[p] == engine(sp.start, sp.end).segment[p - sp.start]
  {
    ExpectedInside(source, engine, spans, 0, j, p);
  }

  /** Inside the `k`-th interval, in its original position in the list,
      the loop's output holds that interval's replacement at the interval's
      own offset, whatever the engine. */
  lemma WellFormedInside(source: Segment, engine: Engine, censorTimes: seq<Word>, k: nat, p: nat)
    requires FitsSpan(engine) && WellFormed(censorTimes, |source|)
    requires AllReplaced(engine, Spans(censorTimes))
    requires k < |censorTimes| && StartMs(censorTimes[k]) <= p < EndMs(censorTimes[k])
    ensures CopiesReplacement(Expected(source, engine, Spans(SortBy(censorTimes, ByStart)), 0), engine, censorTimes[k], p)
  {
    var spans := Spans(SortBy(censorTimes, ByStart));
    SortedSpans(engine, censorTimes, |source|);
    var j := SortedPosition(censorTimes, k);
    var sp := SpanOf(censorTimes[k]);
    assert spans[j] == sp;
    ChainInsideCopies(source, engine, spans, j, censorTimes[k], p);
  }

  /** `ChainInside` stated for the word whose span sits at position `j`. */
  lemma ChainInsideCopies(source: Segment, engine: Engine, spans: seq<Span>, j: nat, w: Word, p: nat)
    requires FitsSpan(engine) && Chain(spans, 0, |source|) && AllReplaced(engine, spans)
    requires j < |spans| && spans[j] == SpanOf(w) && StartMs(w) <= p < EndMs(w)
    ensures CopiesReplacement(Expected(source, engine, spans, 0), engine, w, p)
  {
    var sp := SpanOf(w);
    assert engine(sp.start, sp.end).Replaced?;
    ChainInside(source, engine, spans, j, sp, p);
  }

  /** Where the `k`-th interval ends up after sorting. */
  lemma SortedPosition(censorTimes: seq<Word>, k: nat) returns (j: nat)
    requires k < |censorTimes|
    ensures j < |censorTimes| && Spans(SortBy(censorTimes, ByStart))[j] == SpanOf(censorTimes[k])
  {
    var sorted := SortBy(censorTimes, ByStart);
    assert censorTimes[k] in multiset(sorted);
    j :| 0 <= j < |sorted| && sorted[j] == censorTimes[k];
  }

  /** For non-overlapping intervals inside the source that all get a
      replacement, `splice_audio` saves audio exactly as long as the source,
      with every millisecond outside the intervals copied to the same offset. */
  lemma SpliceAudioPreservesLength(env: Environment, audioPath: string, censorTimes: seq<Word>, dbPath: string)
    requires Loads(env, audioPath, dbPath) && env.exportSucceeds
    requires WellFormed(censorTimes, |env.files[audioPath].segment|)
    requires AllReplaced(EngineOf(ContextOf(env, audioPath, dbPath)), Spans(censorTimes))
    ensures SpliceAudio(env, audioPath, censorTimes, dbPath).outcome.Saved?
    ensures |SpliceAudio(env, audioPath, censorTimes, dbPath).outcome.audio| == |env.files[audioPath].segment|
    ensures forall p :: 0 <= p < |env.files[audioPath].segment| && OutsideAll(Spans(censorTimes), p) ==>
      SpliceAudio(env, audioPath, censorTimes, dbPath).outcome.audio[p] == env.files[audioPath].segment[p]
  {
    var ctx := ContextOf(env, audioPath, dbPath);
    EngineFitsSpan(ctx);
    SortedSpans(EngineOf(ctx), censorTimes, |ctx.source|);
    WellFormedOutput(ctx.source, EngineOf(ctx), censorTimes);
    SpliceAudioSavesExpected(env, audioPath, censorTimes, dbPath);
  }

  /** For the same inputs, every millisecond inside an interval holds the
      meow prepared for that interval, at the interval's own offset. */
  lemma SpliceAudioReplacesIntervals(env: Environment, audioPath: string, censorTimes: seq<Word>, dbPath: string)
    requires Loads(env, audioPath, dbPath) && env.exportSucceeds
    requires WellFormed(censorTimes, |env.files[audioPath].segment|)
    requires AllReplaced(EngineOf(ContextOf(env, audioPath, dbPath)), Spans(censorTimes))
    ensures SpliceAudio(env, audioPath, censorTimes, dbPath).outcome.Saved?
    ensures forall k, p :: 0 <= k < |censorTimes| && StartMs(censorTimes[k]) <= p < EndMs(censorTimes[k]) ==>
      CopiesReplacement(SpliceAudio(env, audioPath, censorTimes, dbPath).outcome.audio,
                        EngineOf(ContextOf(env, audioPath, dbPath)), censorTimes[k], p)
  {
    var ctx := ContextOf(env, audioPath, dbPath);
    EngineFitsSpan(ctx);
    SpliceAudioSavesExpected(env, audioPath, censorTimes, dbPath);
    WellFormedInsideAll(ctx.source, EngineOf(ctx), censorTimes);
  }

  /** Millisecond `p` of `out` is the matching millisecond of the
      replacement the engine produced for word `w`. */
  predicate CopiesReplacement(out: Segment, engine: Engine, w: Word, p: nat)
  {
    var op := engine(StartMs(w), EndMs(w));
    op.Replaced? && StartMs(w) <= p < |out| && p - StartMs(w) < |op.segment| && out[p] == op.segment[p - StartMs(w)]
  }

  /** Every millisecond inside every interval of a well-formed, fully
      replaced list comes from that interval's replacement. */
  lemma WellFormedInsideAll(source: Segment, engine: Engine, censorTimes: seq<Word>)
    requires FitsSpan(engine) && WellFormed(censorTimes, |source|)
    requires AllReplaced(engine, Spans(censorTimes))
    ensures forall k, p :: 0 <= k < |censorTimes| && StartMs(censorTimes[k]) <= p < EndMs(censorTimes[k]) ==>
      CopiesReplacement(Expected(source, engine, Spans(SortBy(censorTimes, ByStart)), 0), engine, censorTimes[k], p)
  {
    forall k, p | 0 <= k < |censorTimes| && StartMs(censorTimes[k]) <= p < EndMs(censorTimes[k])
      ensures CopiesReplacement(Expected(source, engine, Spans(SortBy(censorTimes, ByStart)), 0), engine, censorTimes[k], p)
    {
      WellFormedInside(source, engine, censorTimes, k, p);
    }
  }
}

=== FILE: library.dfy ===
/** The file-name and bookkeeping logic of the library preparation script:
    how a Freesound result becomes a raw `.mp3` path, how many are kept, how
    a raw path becomes a processed `.wav` name, and which sounds reach the
    meow database. The Freesound client, librosa and soundfile are
    parameters: `isAlnum` stands for Python's Unicode-aware `str.isalnum`,
    and `Analysis` bundles loading, trimming, pitch estimation and writing. */
module Library {

  import opened Wrappers
  import opened Paths
  import opened Catalog

  /** How many previews the script collects at most. */
  const DownloadCount: nat := 50

  const LibraryDir: string := "meow_library"
  const RawAudioDir: string := Join(LibraryDir, "raw")
  const ProcessedAudioDir: string := Join(LibraryDir, "processed")

  // ---------------------------------------------------------------------
  // Sanitising a sound name

  /** Python's `str.isspace`: the characters `rstrip()` removes by default.
      The space is one of them; the underscore, the ASCII letters and the
      digits, which the sanitiser keeps, are not. */
  function IsSpace(c: char): (r: bool)
    ensures c == ' ' || c == '\t' || c == '\n' ==> r
    ensures c == '_' || ('0' <= c <= '9') || ('a' <= c <= 'z') || ('A' <= c <= 'Z') ==> !r
  {
    var k := c as int;
    (9 <= k <= 13) || (28 <= k <= 32) || k == 0x85 || k == 0xA0 || k == 0x1680
    || (0x2000 <= k <= 0x200A) || k == 0x2028 || k == 0x2029 || k == 0x202F
    || k == 0x205F || k == 0x3000
  }

  /** The characters the sanitiser lets through. */
  predicate Kept(c: char, isAlnum: char -> bool)
  {
    isAlnum(c) || c == ' ' || c == '_'
  }

  /** `a` can be obtained from `b` by deleting characters. */
  predicate IsSubsequence(a: string, b: string)
    decreases |b|
  {
    |a| == 0 ||
    (|b| > 0 && ((a[0] == b[0] && IsSubsequence(a[1..], b[1..])) || IsSubsequence(a, b[1..])))
  }

  /** The name with every character dropped that is neither alphanumeric, a
      space nor an underscore. */
  function KeepSafe(name: string, isAlnum: char -> bool): (r: string)
    ensures forall i :: 0 <= i < |r| ==> Kept(r[i], isAlnum)
    ensures IsSubsequence(r, name)
  {
    if |name| == 0 then []
    else
      var rest := KeepSafe(name[1..], isAlnum);
      if Kept(name[0], isAlnum) then [name[0]] + rest else rest
  }

  /** The filter drops no safe character: each occurs as often as in the
      name. With the subsequence property this pins the filter down. */
  lemma {:induction false} KeepSafeKeepsEverySafeChar(name: string, isAlnum: char -> bool, c: char)
    requires Kept(c, isAlnum)
    ensures multiset(KeepSafe(name, isAlnum))[c] == multiset(name)[c]
  {
    if |name| > 0 {
      KeepSafeKeepsEverySafeChar(name[1..], isAlnum, c);
      assert name == [name[0]] + name[1..];
    }
  }

  /** `s.rstrip()`: drop trailing whitespace. */
  function RStrip(s: string): (r: string)
    ensures |r| <= |s| && r == s[..|r|]
    ensures |r| == 0 || !IsSpace(r[|r| - 1])
    ensures forall i :: |r| <= i < |s| ==> IsSpace(s[i])
  {
    if |s| == 0 || !IsSpace(s[|s| - 1]) then s else RStrip(s[..|s| - 1])
  }

  /** The sanitised name of line 89: only alphanumerics, spaces and
      underscores, in their original order, never ending in whitespace. */
  function SafeName(name: string, isAlnum: char -> bool): (r: string)
    ensures forall i :: 0 <= i < |r| ==> Kept(r[i], isAlnum)
    ensures IsSubsequence(r, name)
    ensures |r| == 0 || r[|r| - 1] != ' '
  {
    var kept := KeepSafe(name, isAlnum);
    var safe := RStrip(kept);
    PrefixOfSubsequence(safe, kept, name);
    safe
  }

  lemma {:induction false} PrefixOfSubsequence(p: string, a: string, b: string)
    requires IsSubsequence(a, b)
    requires |p| <= |a| && p == a[..|p|]
    ensures IsSubsequence(p, b)
    decreases |b|
  {
    if |p| > 0 {
      if a[0] == b[0] && IsSubsequence(a[1..], b[1..]) {
        PrefixOfSubsequence(p[1..], a[1..], b[1..]);
      } else {
        PrefixOfSubsequence(p, a, b[1..]);
      }
    }
  }

  /** The string with every space turned into an underscore. */
  function ReplaceSpaces(s: string): (r: string)
    ensures |r| == |s|
    ensures ' ' !in r
    ensures forall i :: 0 <= i < |s| && s[i] != ' ' ==> r[i] == s[i]
    ensures forall i :: 0 <= i < |s| && s[i] == ' ' ==> r[i] == '_'
  {
    if |s| == 0 then []
    else [if s[0] == ' ' then '_' else s[0]] + ReplaceSpaces(s[1..])
  }

  // ---------------------------------------------------------------------
  // Decimal rendering of a Freesound id (`str(sound.id)`)

  function DigitChar(d: nat): (c: char)
    requires d < 10
  {
    "0123456789"[d]
  }

  function DigitValue(c: char): nat
  {
    if '0' <= c <= '9' then (c as int - '0' as int) as nat else 0
  }

  /** `str(n)` for a non-negative integer. */
  function NatToString(n: nat): (r: string)
    ensures |r| > 0
    ensures forall i :: 0 <= i < |r| ==> '0' <= r[i] <= '9'
  {
    if n < 10 then [DigitChar(n)] else NatToString(n / 10) + [DigitChar(n % 10)]
  }

  function ParseDecimal(s: string): nat
  {
    if |s| == 0 then 0 else ParseDecimal(s[..|s| - 1]) * 10 + DigitValue(s[|s| - 1])
  }

  /** The rendering is read back as the same number: distinct ids give
      distinct prefixes. */
  lemma {:induction false} NatToStringRoundTrip(n: nat)
    ensures ParseDecimal(NatToString(n)) == n
  {
    if n >= 10 {
      var s := NatToString(n);
      assert s[..|s| - 1] == NatToString(n / 10);
      NatToStringRoundTrip(n / 10);
    }
  }

  // ---------------------------------------------------------------------
  // Raw and processed file names

  /** A character absent from two strings is absent from their concatenation. */
  lemma AbsentFromConcat(c: char, a: string, b: string)
    requires c !in a && c !in b
    ensures c !in a + b
  {
    var ab := a + b;
    forall i | 0 <= i < |ab|
      ensures ab[i] != c
    {
      if i < |a| {
        assert ab[i] == a[i];
      } else {
        assert ab[i] == b[i - |a|];
      }
    }
  }

  /** The raw file name of a sound: its id in decimal, an underscore, the
      sanitised name with spaces turned into underscores, and the `.mp3`
      extension. It has no spaces, and the id reads back from its leading
      digits. */
  function RawFilename(id: nat, name: string, isAlnum: char -> bool): (r: string)
    ensures ' ' !in r
    ensures |r| >= 4 && r[|r| - 4..] == ".mp3"
    ensures |NatToString(id)| < |r| && ParseDecimal(r[..|NatToString(id)|]) == id && r[|NatToString(id)|] == '_'
  {
    var digits := NatToString(id);
    var safe := ReplaceSpaces(SafeName(name, isAlnum));
    var f := digits + "_" + safe + ".mp3";
    assert ' ' !in digits;
    AbsentFromConcat(' ', digits, "_");
    AbsentFromConcat(' ', digits + "_", safe);
    AbsentFromConcat(' ', digits + "_" + safe, ".mp3");
    assert f[..|digits|] == digits;
    NatToStringRoundTrip(id);
    f
  }

  /** The processed file name of a raw path: a plain file name, the raw
      path's base name with its extension (if any) replaced by `.wav`. */
  function ProcessedFilename(rawPath: string): (r: string)
    ensures '/' !in r
    ensures |r| >= 4 && r[|r| - 4..] == ".wav"
    ensures r[..|r| - 4] + SplitExt(Basename(rawPath)).1 == Basename(rawPath)
  {
    var stem := Stem(Basename(rawPath));
    assert '/' !in ".wav";
    NoSeparatorInConcat(stem, ".wav");
    stem + ".wav"
  }

  /** As Python's `isalnum` holds for neither '.' nor '/', the sanitised
      name contains neither. */
  lemma SafeNameHasNoDotOrSlash(name: string, isAlnum: char -> bool)
    requires !isAlnum('.') && !isAlnum('/')
    ensures '.' !in ReplaceSpaces(SafeName(name, isAlnum))
    ensures '/' !in ReplaceSpaces(SafeName(name, isAlnum))
  {
    var sn := SafeName(name, isAlnum);
    var safe := ReplaceSpaces(sn);
    forall i | 0 <= i < |safe|
      ensures safe[i] != '.' && safe[i] != '/'
    {
      if sn[i] != ' ' {
        assert Kept(sn[i], isAlnum);
      }
    }
  }

  /** The processed name derived from a raw path is the same `<id>_<name>`
      with `.wav` in place of `.mp3`. */
  lemma RawFilenameShape(id: nat, name: string, isAlnum: char -> bool)
    requires !isAlnum('.') && !isAlnum('/')
    ensures ProcessedFilename(Join(RawAudioDir, RawFilename(id, name, isAlnum)))
      == NatToString(id) + "_" + ReplaceSpaces(SafeName(name, isAlnum)) + ".wav"
  {
    var digits := NatToString(id);
    assert '.' !in digits && '/' !in digits;
    SafeNameHasNoDotOrSlash(name, isAlnum);
    ProcessedOfRawName(digits, ReplaceSpaces(SafeName(name, isAlnum)));
  }

  /** A raw name `<digits>_<safe>.mp3` whose parts hold neither dots nor
      separators becomes `<digits>_<safe>.wav`. */
  lemma ProcessedOfRawName(digits: string, safe: string)
    requires |digits| > 0 && '.' !in digits && '/' !in digits
    requires '.' !in safe && '/' !in safe
    ensures ProcessedFilename(Join(RawAudioDir, digits + "_" + safe + ".mp3")) == digits + "_" + safe + ".wav"
  {
    var x := digits + "_" + safe;
    var f := x + ".mp3";
    forall i | 0 <= i < |x|
      ensures x[i] != '.' && x[i] != '/'
    {
      if i < |digits| {
        assert x[i] == digits[i];
      } else if i > |digits| {
        assert x[i] == safe[i - |digits| - 1];
      }
    }
    assert '/' !in f;
    SplitExtOfDottedName(x, ".mp3");
  }

  // ---------------------------------------------------------------------
  // Downloading previews (lines 81-99)

  /** One Freesound search result; `previewOk` says whether
      `retrieve_preview` succeeds for it. */
  datatype Sound = Sound(id: nat, name: string, previewOk: bool)

  /** The raw path a result is downloaded to: the sound's raw file name
      directly inside the raw directory. */
  function RawPath(s: Sound, isAlnum: char -> bool): (r: string)
    ensures !isAlnum('/') ==> Basename(r) == RawFilename(s.id, s.name, isAlnum)
    ensures !isAlnum('/') ==> |RawAudioDir| <= |r| && r[..|RawAudioDir|] == RawAudioDir
  {
    var f := RawFilename(s.id, s.name, isAlnum);
    assert !isAlnum('/') ==> '/' !in f by {
      if !isAlnum('/') { RawFilenameHasNoSlash(s.id, s.name, isAlnum); }
    }
    Join(RawAudioDir, f)
  }

  /** When `/` is not alphanumeric, a raw file name holds no separator. */
  lemma RawFilenameHasNoSlash(id: nat, name: string, isAlnum: char -> bool)
    requires !isAlnum('/')
    ensures '/' !in RawFilename(id, name, isAlnum)
  {
    var digits := NatToString(id);
    var sn := SafeName(name, isAlnum);
    var safe := ReplaceSpaces(sn);
    var f := RawFilename(id, name, isAlnum);
    assert f == digits + "_" + safe + ".mp3";
    forall i | 0 <= i < |f|
      ensures f[i] != '/'
    {
      if i < |digits| {
        assert f[i] == digits[i];
      } else if |digits| < i < |digits| + 1 + |safe| {
        var k := i - |digits| - 1;
        assert f[i] == safe[k];
        if sn[k] != ' ' {
          assert Kept(sn[k], isAlnum);
        }
      }
    }
  }

  /** The naming rule of lines 89-91 as a value, so that the download loop
      can be stated for any rule. */
  function PathOf(isAlnum: char -> bool): Sound -> string
  {
    (s: Sound) => RawPath(s, isAlnum)
  }

  /** The collected paths and the files present in the raw directory. */
  datatype Progress = Progress(paths: seq<string>, existing: set<string>)

  /** One iteration of the download loop's body: an existing file is reused,
      a successful download creates the file, and either way the path is
      collected; a failed download collects nothing. */
  function TryDownload(p: Progress, s: Sound, pathOf: Sound -> string): (r: Progress)
    ensures r.paths == p.paths || r.paths == p.paths + [pathOf(s)]
    ensures r.paths == p.paths + [pathOf(s)] <==> pathOf(s) in p.existing || s.previewOk
    ensures r.existing == if s.previewOk then p.existing + {pathOf(s)} else p.existing
  {
    var path := pathOf(s);
    if path in p.existing then Progress(p.paths + [path], p.existing)
    else if s.previewOk then Progress(p.paths + [path], p.existing + {path})
    else p
  }

  /** The loop body applied to every result in order, without the bound. */
  function DownloadAll(sounds: seq<Sound>, existing: set<string>, pathOf: Sound -> string): (r: Progress)
    ensures |r.paths| <= |sounds|
  {
    if |sounds| == 0 then Progress([], existing)
    else TryDownload(DownloadAll(sounds[..|sounds| - 1], existing, pathOf), sounds[|sounds| - 1], pathOf)
  }

  /** A result whose preview cannot be retrieved and is not already on disk
      adds nothing, and the loop goes on with the next result. */
  lemma FailedDownloadAddsNothing(sounds: seq<Sound>, s: Sound, existing: set<string>, pathOf: Sound -> string)
    requires !s.previewOk
    requires pathOf(s) !in DownloadAll(sounds, existing, pathOf).existing
    ensures DownloadAll(sounds + [s], existing, pathOf) == DownloadAll(sounds, existing, pathOf)
  {
    assert (sounds + [s])[..|sounds|] == sounds;
  }

  /** `a` is a prefix of `b`. */
  ghost predicate IsPrefix<T>(a: seq<T>, b: seq<T>)
  {
    |a| <= |b| && b[..|a|] == a
  }

  /** Trying fewer results collects a prefix of what trying more collects. */
  lemma {:induction false} DownloadPrefix(sounds: seq<Sound>, i: nat, existing: set<string>, pathOf: Sound -> string)
    requires i <= |sounds|
    ensures IsPrefix(DownloadAll(sounds[..i], existing, pathOf).paths, DownloadAll(sounds, existing, pathOf).paths)
    decreases |sounds| - i
  {
    if i < |sounds| {
      DownloadPrefix(sounds, i + 1, existing, pathOf);
      DownloadPrefixStep(sounds, i, existing, pathOf);
    } else {
      assert sounds[..i] == sounds;
    }
  }

  lemma DownloadPrefixStep(sounds: seq<Sound>, i: nat, existing: set<string>, pathOf: Sound -> string)
    requires i < |sounds|
    requires IsPrefix(DownloadAll(sounds[..i + 1], existing, pathOf).paths, DownloadAll(sounds, existing, pathOf).paths)
    ensures IsPrefix(DownloadAll(sounds[..i], existing, pathOf).paths, DownloadAll(sounds, existing, pathOf).paths)
  {
    DownloadAllStep(sounds, i, existing, pathOf);
    var before := DownloadAll(sounds[..i], existing, pathOf);
    TryDownloadExtends(before, sounds[i], pathOf);
    PrefixTransitive(before.paths, DownloadAll(sounds[..i + 1], existing, pathOf).paths,
      DownloadAll(sounds, existing, pathOf).paths);
  }

  /** A step only ever appends to the collected paths. */
  lemma TryDownloadExtends(p: Progress, s: Sound, pathOf: Sound -> string)
    ensures IsPrefix(p.paths, TryDownload(p, s, pathOf).paths)
  {
    var r := TryDownload(p, s, pathOf).paths;
    if r != p.paths {
      assert r == p.paths + [pathOf(s)];
      assert r[..|p.paths|] == p.paths;
    }
  }

  lemma PrefixTransitive<T>(a: seq<T>, b: seq<T>, c: seq<T>)
    requires IsPrefix(a, b) && IsPrefix(b, c)
    ensures IsPrefix(a, c)
  {
    assert c[..|a|] == c[..|b|][..|a|];
  }

  /** Trying one more result is one more step of the loop body. */
  lemma DownloadAllStep(sounds: seq<Sound>, i: nat, existing: set<string>, pathOf: Sound -> string)
    requires i < |sounds|
    ensures DownloadAll(sounds[..i + 1], existing, pathOf)
      == TryDownload(DownloadAll(sounds[..i], existing, pathOf), sounds[i], pathOf)
  {
    var tried := sounds[..i + 1];
    assert tried[..|tried| - 1] == sounds[..i] && tried[|tried| - 1] == sounds[i];
  }

  /** The download loop: stop once `DownloadCount` paths are collected. The
      result is the first `DownloadCount` paths the unbounded loop would
      collect, so it never exceeds the bound. It is stated for any naming
      rule; the script's own rule is `PathOf(isAlnum)`. */
  method DownloadPreviews(sounds: seq<Sound>, existing: set<string>, pathOf: Sound -> string)
    returns (paths: seq<string>)
    ensures |paths| <= DownloadCount
    ensures var all := DownloadAll(sounds, existing, pathOf).paths;
      paths == all[..if |all| < DownloadCount then |all| else DownloadCount]
  {
    paths := [];
    var present := existing;
    var i := 0;
    // The check at the top of the body (lines 85-86) is folded into the guard.
    while i < |sounds| && |paths| < DownloadCount
      invariant 0 <= i <= |sounds|
      invariant Progress(paths, present) == DownloadAll(sounds[..i], existing, pathOf)
      invariant |paths| <= DownloadCount
    {
      var next := TryDownload(Progress(paths, present), sounds[i], pathOf);
      DownloadAllStep(sounds, i, existing, pathOf);
      paths, present := next.paths, next.existing;
      i := i + 1;
    }
    StopIsTruncation(sounds, i, existing, pathOf);
  }

  /** Where the bounded loop stops, it has collected the first
      `DownloadCount` paths of the unbounded loop, or all of them. */
  lemma StopIsTruncation(sounds: seq<Sound>, i: nat, existing: set<string>, pathOf: Sound -> string)
    requires i <= |sounds|
    requires |DownloadAll(sounds[..i], existing, pathOf).paths| <= DownloadCount
    requires i == |sounds| || |DownloadAll(sounds[..i], existing, pathOf).paths| == DownloadCount
    ensures var all := DownloadAll(sounds, existing, pathOf).paths;
      DownloadAll(sounds[..i], existing, pathOf).paths == all[..if |all| < DownloadCount then |all| else DownloadCount]
  {
    DownloadPrefix(sounds, i, existing, pathOf);
    if i == |sounds| {
      assert sounds[..i] == sounds;
    }
  }

  // ---------------------------------------------------------------------
  // Processing and cataloguing (lines 103-153)

  /** A decoded file: its samples and sample rate (`librosa.load`). */
  datatype Loaded = Loaded(samples: seq<real>, rate: nat)

  /** The numeric and filesystem work the script delegates: `load` is None
      when `librosa.load` raises, `trim` is `librosa.effects.trim`, `pitch`
      the average pYIN pitch (None when `librosa.pyin` raises), `writable`
      whether `sf.write` succeeds. */
  datatype Analysis = Analysis(
    load: string -> Option<Loaded>,
    trim: seq<real> -> seq<real>,
    pitch: seq<real> -> Option<real>,
    writable: string -> bool)

  /** A database row as the script writes it: its path names its file, and
      its duration is positive. */
  predicate Catalogued(row: Row)
  {
    Basename(row.path) == row.filename && row.durationSeconds > 0.0
  }

  /** Every step of the `try` succeeds for this raw file: it loads with a
      positive sample rate, trims to something, gets a pitch estimate, and
      its processed file can be written. */
  predicate Processable(rawPath: string, a: Analysis)
  {
    && a.load(rawPath).Some?
    && a.load(rawPath).value.rate > 0
    && |a.trim(a.load(rawPath).value.samples)| > 0
    && a.pitch(a.trim(a.load(rawPath).value.samples)).Some?
    && a.writable(Join(ProcessedAudioDir, ProcessedFilename(rawPath)))
  }

  /** One iteration of the processing loop: the catalog row it adds, if any.
      Any exception inside the `try` (a failed load, pitch estimate or
      write, a zero sample rate in the duration) skips the file, and so does
      an empty trim. */
  function ProcessOne(rawPath: string, a: Analysis): (r: Option<Row>)
    ensures r.Some? <==> Processable(rawPath, a)
    ensures r.Some? ==> Catalogued(r.value)
    ensures r.Some? ==>
      var loaded := a.load(rawPath).value;
      var trimmed := a.trim(loaded.samples);
      && r.value.filename == ProcessedFilename(rawPath)
      && r.value.path == Join(ProcessedAudioDir, r.value.filename)
      && r.value.durationSeconds == |trimmed| as real / loaded.rate as real
      && a.pitch(trimmed) == Some(r.value.averagePitchHz)
  {
    match a.load(rawPath)
    case None => None
    case Some(loaded) =>
      var trimmed := a.trim(loaded.samples);
      if |trimmed| == 0 then None
      else
        var filename := ProcessedFilename(rawPath);
        var path := Join(ProcessedAudioDir, filename);
        match a.pitch(trimmed)
        case None => None
        case Some(hz) =>
          if !a.writable(path) || loaded.rate == 0 then None
          else
            var duration := |trimmed| as real / loaded.rate as real;
            PositiveRatio(|trimmed|, loaded.rate);
            assert Basename(path) == filename;
            Some(Row(filename, path, duration, hz))
  }

  /** A sample count over a sample rate, both positive, is a positive
      duration. */
  lemma PositiveRatio(count: nat, rate: nat)
    requires count > 0 && rate > 0
    ensures count as real / rate as real > 0.0
  {
  }

  /** The rows of the processing loop, in the order of the raw paths. */
  function CatalogRows(rawPaths: seq<string>, a: Analysis): (rows: seq<Row>)
    ensures |rows| <= |rawPaths|
    ensures forall i :: 0 <= i < |rows| ==> Catalogued(rows[i])
  {
    if |rawPaths| == 0 then []
    else
      var rest := CatalogRows(rawPaths[1..], a);
      match ProcessOne(rawPaths[0], a)
      case Some(row) => [row] + rest
      case None => rest
  }

  /** A raw file that trims to nothing contributes no row. */
  lemma EmptyTrimNoRow(rawPath: string, rest: seq<string>, a: Analysis)
    requires a.load(rawPath).Some? && |a.trim(a.load(rawPath).value.samples)| == 0
    ensures CatalogRows([rawPath] + rest, a) == CatalogRows(rest, a)
  {
    assert ([rawPath] + rest)[1..] == rest;
  }

  /** The whole script after the directory clean-up: download, process, and
      write the database only when at least one row exists. */
  method PrepareLibrary(sounds: seq<Sound>, existing: set<string>, isAlnum: char -> bool, a: Analysis)
    returns (database: Option<seq<Row>>)
    ensures database.Some? <==> |CatalogRows(DownloadPreviewsSpec(sounds, existing, isAlnum), a)| > 0
    ensures database.Some? ==> database.value == CatalogRows(DownloadPreviewsSpec(sounds, existing, isAlnum), a)
    ensures database.Some? ==> 0 < |database.value| <= DownloadCount
  {
    var paths := DownloadPreviews(sounds, existing, PathOf(isAlnum));
    var rows := CatalogRows(paths, a);
    if |rows| > 0 {
      database := Some(rows);
    } else {
      database := None;
    }
  }

  /** The paths `DownloadPreviews` collects. */
  function DownloadPreviewsSpec(sounds: seq<Sound>, existing: set<string>, isAlnum: char -> bool): (r: seq<string>)
    ensures |r| <= DownloadCount
  {
    var all := DownloadAll(sounds, existing, PathOf(isAlnum)).paths;
    all[..if |all| < DownloadCount then |all| else DownloadCount]
  }
}

=== FILE: paths.dfy ===
/** The POSIX `os.path` operations both scripts use to derive file names:
    `basename`, `splitext` and `join`. */
module Paths {

  /** `s.rfind(c)`: the index of the last `c` in `s`, or -1. */
  function LastIndexOf(s: string, c: char): (r: int)
    ensures -1 <= r < |s|
    ensures r >= 0 ==> s[r] == c
    ensures forall j :: r < j < |s| ==> s[j] != c
  {
    if |s| == 0 then -1
    else if s[|s| - 1] == c then |s| - 1
    else LastIndexOf(s[..|s| - 1], c)
  }

  /** `os.path.basename(p)`: everything after the last '/'. */
  function Basename(p: string): (r: string)
    ensures '/' !in r
  {
    p[LastIndexOf(p, '/') + 1..]
  }

  /** A basename holds no separator and is what `p` ends with. */
  lemma BasenameIsLastComponent(p: string)
    ensures '/' !in Basename(p)
    ensures |Basename(p)| <= |p| && p[|p| - |Basename(p)|..] == Basename(p)
    ensures |Basename(p)| < |p| ==> p[|p| - |Basename(p)| - 1] == '/'
  {
  }

  /** The basename of a path built as `dir/name` is `name`. */
  lemma BasenameOfJoin(dir: string, name: string)
    requires '/' !in name
    ensures Basename(dir + "/" + name) == name
  {
    var p := dir + "/" + name;
    var k := LastIndexOf(p, '/');
    assert p[|dir|] == '/';
    assert p[k + 1..] == name;
  }

  /** A name without separators is its own basename. */
  lemma BasenameOfName(name: string)
    requires '/' !in name
    ensures Basename(name) == name
  {
  }

  /** `os.path.join(a, b)` for POSIX paths. Joining a name without
      separators onto any directory gives a path whose basename is that
      name, and the directory part is kept in front. */
  function Join(a: string, b: string): (r: string)
    ensures '/' !in b ==> Basename(r) == b
    ensures '/' !in b ==> |a| <= |r| && r[..|a|] == a
  {
    if |b| > 0 && b[0] == '/' then b
    else if |a| == 0 then
      assert '/' !in b ==> Basename(b) == b by {
        if '/' !in b { BasenameOfName(b); }
      }
      b
    else if a[|a| - 1] == '/' then
      assert |b| > 0 ==> b[0] in b;
      var d := a[..|a| - 1];
      assert a + b == d + "/" + b;
      assert '/' !in b ==> Basename(d + "/" + b) == b by {
        if '/' !in b { BasenameOfJoin(d, b); }
      }
      a + b
    else
      assert |b| > 0 ==> b[0] in b;
      assert '/' !in b ==> Basename(a + "/" + b) == b by {
        if '/' !in b { BasenameOfJoin(a, b); }
      }
      a + "/" + b
  }

  /** Names without separators concatenate to a name without separators. */
  lemma NoSeparatorInConcat(a: string, b: string)
    requires '/' !in a && '/' !in b
    ensures '/' !in a + b
    ensures |a + b| > 0 ==> (a + b)[0] != '/'
  {
    var ab := a + b;
    forall i | 0 <= i < |ab|
      ensures ab[i] != '/'
    {
      if i < |a| {
        assert ab[i] == a[i];
      } else {
        assert ab[i] == b[i - |a|];
      }
    }
  }

  /** Whether some character before index `k` of `s` is not a dot. */
  predicate HasNonDotBefore(s: string, k: nat)
    requires k <= |s|
  {
    exists i :: 0 <= i < k && s[i] != '.'
  }

  /** `os.path.splitext(name)` for a name without separators: the extension
      starts at the last dot, unless every character before that dot is a
      dot too (a leading-dot name such as ".bashrc" has no extension). */
  function SplitExt(name: string): (r: (string, string))
    requires '/' !in name
    ensures r.0 + r.1 == name
    ensures r.1 == [] || (r.1[0] == '.' && '.' !in r.1[1..])
    ensures r.1 != [] <==> '.' in name && HasNonDotBefore(name, LastIndexOf(name, '.'))
  {
    var dot := LastIndexOf(name, '.');
    if dot >= 0 && HasNonDotBefore(name, dot) then (name[..dot], name[dot..])
    else (name, [])
  }

  /** The stem of a base name: `os.path.splitext(name)[0]`. */
  function Stem(name: string): (r: string)
    requires '/' !in name
    ensures |r| <= |name| && r == name[..|r|]
    ensures '/' !in r
  {
    SplitExt(name).0
  }

  /** Splitting `x + ext` recovers `x` when `x` is a non-empty name without
      dots and `ext` is one dot followed by dot-free characters. */
  lemma SplitExtOfDottedName(x: string, ext: string)
    requires |x| > 0 && '.' !in x && '/' !in x
    requires |ext| > 0 && ext[0] == '.' && '.' !in ext[1..] && '/' !in ext
    ensures SplitExt(x + ext) == (x, ext)
  {
    var name := x + ext;
    var dot := LastIndexOf(name, '.');
    assert name[|x|] == '.';
    assert name[0] == x[0] && x[0] != '.';
    assert HasNonDotBefore(name, dot);
    assert name[..dot] == x && name[dot..] == ext;
  }
}

=== FILE: pydub.dfy ===
/** The parts of pydub's AudioSegment that the splicer relies on.

    A segment is a sequence of 16-bit samples, one sample per millisecond:
    pydub reports `len()` and slices in milliseconds, and every length
    argument in the splicer is a whole number of milliseconds. Loudness is
    measured the way pydub measures it (integer rms, absolute peak); only the
    logarithm that turns a peak into decibels is left as a parameter. */
module Pydub {

  const SampleMin: int := -32768
  const SampleMax: int := 32767

  /** One signed 16-bit sample. */
  type Sample = x: int | SampleMin <= x <= SampleMax

  /** An AudioSegment: one sample per millisecond. */
  type Segment = seq<Sample>

  function Min(a: int, b: int): int { if a <= b then a else b }

  function Abs(x: int): nat { if x < 0 then -x else x }

  /** How far `x` lies from `a + b`. */
  function DistanceToSum(x: int, a: int, b: int): nat { Abs(x - (a + b)) }

  /** `AudioSegment.silent(duration=n)`: n milliseconds that pydub measures
      as silent, with dBFS and max_dBFS both -inf. */
  function Silent(n: nat): (r: Segment)
    ensures |r| == n
    ensures forall i :: 0 <= i < n ==> r[i] == 0
    ensures Peak(r) == 0 && SumSquares(r) == 0
  {
    var s: Segment := seq(n, _ => 0);
    assert Peak(s) == 0;
    ZeroPeakZeroEnergy(s);
    s
  }

  /** `seg[a:b]` for non-negative millisecond positions: both ends are
      clamped to the segment's length, and an empty or reversed range gives
      the empty segment. */
  function Slice(s: Segment, a: nat, b: nat): (r: Segment)
    ensures |r| == if Min(b, |s|) > Min(a, |s|) then Min(b, |s|) - Min(a, |s|) else 0
    ensures forall i :: 0 <= i < |r| ==> r[i] == s[a + i]
  {
    var lo := Min(a, |s|);
    var hi := Min(b, |s|);
    if lo < hi then s[lo..hi] else []
  }

  /** `seg[a:]`. */
  function Tail(s: Segment, a: nat): (r: Segment)
    ensures |r| == |s| - Min(a, |s|)
    ensures forall i :: 0 <= i < |r| ==> r[i] == s[a + i]
  {
    Slice(s, a, |s|)
  }

  lemma SliceLength(s: Segment, a: nat, b: nat)
    ensures |Slice(s, a, b)| == if Min(b, |s|) > Min(a, |s|) then Min(b, |s|) - Min(a, |s|) else 0
    ensures a <= b <= |s| ==> Slice(s, a, b) == s[a..b]
  {
  }

  /** Slicing a whole segment from position 0 returns it unchanged. */
  lemma TailFromStart(s: Segment)
    ensures Tail(s, 0) == s
  {
  }

  /** Adjacent slices join into the slice that spans both. */
  lemma SliceJoin(s: Segment, a: nat, b: nat, c: nat)
    requires a <= b <= c
    ensures Slice(s, a, b) + Slice(s, b, c) == Slice(s, a, c)
  {
    if c <= |s| {
      assert s[a..b] + s[b..c] == s[a..c];
    } else if b <= |s| {
      assert s[a..b] + s[b..|s|] == s[a..|s|];
    }
  }

  /** `audioop.add` on one pair of samples: the sum saturates at the sample
      range, that is, it is the sample value closest to the true sum. */
  function Mix(a: Sample, b: Sample): (r: Sample)
    ensures forall x: Sample :: DistanceToSum(r, a, b) <= DistanceToSum(x, a, b)
    ensures SampleMin <= a + b <= SampleMax ==> r == a + b
  {
    if a + b > SampleMax then SampleMax
    else if a + b < SampleMin then SampleMin
    else a + b
  }

  /** `bed.overlay(top)` at position 0, played once: the overlapping part is
      mixed sample by sample, what `top` has beyond the end of `bed` is
      dropped, and the rest of `bed` is kept. */
  function Overlay(bed: Segment, top: Segment): (r: Segment)
    ensures |r| == |bed|
    ensures forall i :: 0 <= i < |bed| && i < |top| ==> r[i] == Mix(bed[i], top[i])
    ensures forall i :: |top| <= i < |bed| ==> r[i] == bed[i]
    decreases |bed|
  {
    if |bed| == 0 then []
    else if |top| == 0 then bed
    else [Mix(bed[0], top[0])] + Overlay(bed[1..], top[1..])
  }

  /** Overlaying onto silence yields the top segment cut or padded with
      silence to exactly the bed's length. */
  lemma OverlayOntoSilence(n: nat, top: Segment)
    ensures |top| >= n ==> Overlay(Silent(n), top) == top[..n]
    ensures |top| < n ==> Overlay(Silent(n), top) == top + Silent(n - |top|)
  {
    var bed := Silent(n);
    var r := Overlay(bed, top);
    var want := if |top| >= n then top[..n] else top + Silent(n - |top|);
    assert |want| == n;
    forall i | 0 <= i < n
      ensures r[i] == want[i]
    {
      if i < |top| {
        assert r[i] == Mix(0, top[i]);
      }
    }
    assert r == want;
  }

  /** `audioop.max`: the largest absolute sample value, 0 for an empty segment. */
  function Peak(s: Segment): (r: nat)
    ensures forall i :: 0 <= i < |s| ==> Abs(s[i]) <= r
    ensures |s| == 0 ==> r == 0
    ensures |s| > 0 ==> exists i :: 0 <= i < |s| && Abs(s[i]) == r
  {
    if |s| == 0 then 0
    else
      var rest := Peak(s[1..]);
      if Abs(s[0]) >= rest then Abs(s[0]) else rest
  }

  function SumSquares(s: Segment): nat
  {
    if |s| == 0 then 0 else s[0] * s[0] + SumSquares(s[1..])
  }

  function Square(k: nat): nat { k * k }

  /** `seg.dBFS == -inf`: pydub reports -inf when `audioop.rms`, the integer
      part of sqrt(sum of squares / length), is 0, and for an empty segment.
      The integer root is 0 exactly when no k >= 1 has k * k * length within
      the sum of squares, that is, when the sum is below the length. */
  function IsRmsSilent(s: Segment): (silent: bool)
    ensures silent <==> |s| == 0 || forall k: nat :: k >= 1 ==> Square(k) * |s| > SumSquares(s)
  {
    assert Square(1) == 1;
    if |s| == 0 then true
    else if SumSquares(s) < |s| then
      assert forall k: nat :: k >= 1 ==> Square(k) * |s| > SumSquares(s) by {
        forall k: nat | k >= 1
          ensures Square(k) * |s| > SumSquares(s)
        {
          assert Square(k) >= 1;
          assert Square(k) * |s| >= |s|;
        }
      }
      true
    else false
  }

  lemma {:induction false} ZeroPeakZeroEnergy(s: Segment)
    requires Peak(s) == 0
    ensures SumSquares(s) == 0
  {
    if |s| > 0 {
      assert Abs(s[0]) == 0;
      assert Peak(s[1..]) == 0 by {
        forall i | 0 <= i < |s[1..]|
          ensures Abs(s[1..][i]) == 0
        {
          assert s[1..][i] == s[i + 1];
        }
      }
      ZeroPeakZeroEnergy(s[1..]);
    }
  }

  /** A segment pydub does not treat as silent has a non-zero peak, so its
      `max_dBFS` is a finite number. */
  lemma AudibleHasPeak(s: Segment)
    requires !IsRmsSilent(s)
    ensures Peak(s) > 0
  {
    if Peak(s) == 0 {
      ZeroPeakZeroEnergy(s);
    }
  }


  /** A level in dBFS as a Python float: finite, or one of the infinities
      that pydub returns for silence and that arithmetic on them produces. */
  datatype Level = NegInf | Db(value: real) | PosInf

  /** `x - y` on Python floats, for a finite `x`: the difference is finite
      exactly when `y` is, and then adding `y` back gives `x`; subtracting an
      infinity gives the opposite infinity. */
  function Minus(x: Level, y: Level): (r: Level)
    requires x.Db?
    ensures r.Db? <==> y.Db?
    ensures r.Db? ==> r.value + y.value == x.value
    ensures r.PosInf? <==> y.NegInf?
    ensures r.NegInf? <==> y.PosInf?
  {
    match y
    case Db(v) => Db(x.value - v)
    case NegInf => PosInf
    case PosInf => NegInf
  }

  /** Digital silence is silent to pydub: its dBFS is -inf. */
  lemma SilenceIsRmsSilent(n: nat)
    ensures IsRmsSilent(Silent(n))
  {
  }

  /** `seg.max_dBFS`: `-inf` for a zero peak, otherwise the peak converted to
      decibels by `toDb` (pydub's `ratio_to_db` against full scale). */
  function MaxDbfs(s: Segment, toDb: nat -> real): (r: Level)
    ensures r.NegInf? <==> Peak(s) == 0
    ensures Peak(s) > 0 ==> r == Db(toDb(Peak(s)))
    ensures !r.PosInf?
  {
    if Peak(s) == 0 then NegInf else Db(toDb(Peak(s)))
  }
}

=== FILE: selector.dfy ===
/** Choosing the replacement sound: the database row whose duration is
    closest to the duration needed (`idxmin` over the absolute difference,
    which returns the first row among equals). */
module Selector {

  import opened Wrappers
  import opened Catalog

  /** How far a row's duration is from the needed one, in seconds: the
      absolute difference, zero exactly for an exact match. */
  function Distance(row: Row, needed: real): (d: real)
    ensures d >= 0.0
    ensures d == row.durationSeconds - needed || d == needed - row.durationSeconds
    ensures d == 0.0 <==> row.durationSeconds == needed
  {
    if row.durationSeconds >= needed then row.durationSeconds - needed else needed - row.durationSeconds
  }

  /** Row `k` is at least as close as every row, and strictly closer than
      every row before it. */
  predicate IsFirstNearest(db: seq<Row>, needed: real, k: nat)
  {
    && k < |db|
    && (forall j :: 0 <= j < |db| ==> Distance(db[k], needed) <= Distance(db[j], needed))
    && (forall j :: 0 <= j < k ==> Distance(db[k], needed) < Distance(db[j], needed))
  }

  /** The scan `idxmin` performs: `best` is the first nearest among the rows
      before `i`; a later row replaces it only when strictly closer. */
  function NearestFrom(db: seq<Row>, needed: real, i: nat, best: nat): (k: nat)
    requires best < i <= |db|
    requires forall j :: 0 <= j < i ==> Distance(db[best], needed) <= Distance(db[j], needed)
    requires forall j :: 0 <= j < best ==> Distance(db[best], needed) < Distance(db[j], needed)
    ensures IsFirstNearest(db, needed, k)
    decreases |db| - i
  {
    if i == |db| then best
    else if Distance(db[i], needed) < Distance(db[best], needed) then NearestFrom(db, needed, i + 1, i)
    else NearestFrom(db, needed, i + 1, best)
  }

  /** The index of the first row whose duration is closest to the needed
      one; None stands for the error raised on an empty table. */
  function Nearest(db: seq<Row>, needed: real): (r: Option<nat>)
    ensures r.None? <==> |db| == 0
    ensures r.Some? ==> IsFirstNearest(db, needed, r.value)
  {
    if |db| == 0 then None else Some(NearestFrom(db, needed, 1, 0))
  }

  /** At most one row is the first nearest, so the choice is determined by
      the table and its order. */
  lemma FirstNearestIsUnique(db: seq<Row>, needed: real, a: nat, b: nat)
    requires IsFirstNearest(db, needed, a) && IsFirstNearest(db, needed, b)
    ensures a == b
  {
    var da, db' := Distance(db[a], needed), Distance(db[b], needed);
    assert da <= db' && db' <= da;
  }

  /** With sounds of 0.5 s and 1.5 s, a 1.3 s word gets the 1.5 s sound. */
  lemma NearestExample()
    ensures Nearest([Row("short.wav", "short.wav", 0.5, 300.0), Row("long.wav", "long.wav", 1.5, 200.0)], 1.3) == Some(1)
  {
  }
}

=== FILE: skippolicy.dfy ===
/** What the reconstruction loop does with an interval it skips (no
    duration, or the chosen meow file is missing).

    As written, a skipped interval has already had the audio before it
    appended, but the cursor stays where it was, so the next interval (or
    the closing tail) appends that audio a second time. The evidently
    intended policy keeps the original audio of a skipped interval in place:
    a skip appends nothing and leaves the cursor, so the following append
    covers the gap once. */
module SkipPolicy {

  import opened Pydub
  import opened Surgeon
  import opened Invariants
  import opened DataModels

  /** No span makes the engine raise. */
  predicate NoCrash(engine: Engine, spans: seq<Span>)
  {
    forall i :: 0 <= i < |spans| ==> !engine(spans[i].start, spans[i].end).Crashed?
  }

  /** Every span is skipped. */
  predicate AllSkipped(engine: Engine, spans: seq<Span>)
  {
    forall i :: 0 <= i < |spans| ==> engine(spans[i].start, spans[i].end).Skipped?
  }

  /** Some span makes the engine raise. */
  predicate SomeCrash(engine: Engine, spans: seq<Span>)
  {
    exists i :: 0 <= i < |spans| && engine(spans[i].start, spans[i].end).Crashed?
  }

  /** A chain from a cursor is a chain from any earlier cursor. */
  lemma ChainFromEarlier(spans: seq<Span>, early: nat, late: nat, n: nat)
    requires early <= late && Chain(spans, late, n)
    ensures Chain(spans, early, n)
  {
    if |spans| > 0 {
      assert Chain(spans[1..], spans[0].end, n);
    }
  }

  // ---------------------------------------------------------------------
  // As written

  /** A run whose first span is skipped, for either reason (no duration or
      a missing meow), and whose other spans are all replaced: the audio
      between the cursor and the skipped span is appended twice, so the
      output is longer than the source by exactly that much. The skipped
      span may be empty or reversed; the rest must form a chain from the
      cursor. */
  lemma SkipRepeatsAudio(source: Segment, engine: Engine, spans: seq<Span>, cursor: nat, out: Segment)
    requires FitsSpan(engine) && |spans| > 0
    requires cursor <= spans[0].start <= |source| && Chain(spans[1..], cursor, |source|)
    requires engine(spans[0].start, spans[0].end).Skipped? && AllReplaced(engine, spans[1..])
    ensures Reconstruct(source, engine, spans, cursor, out)
      == Done(out + Slice(source, cursor, spans[0].start) + Expected(source, engine, spans[1..], cursor))
    ensures |Reconstruct(source, engine, spans, cursor, out).audio|
      == |out| + (|source| - cursor) + (spans[0].start - cursor)
  {
    var before := out + Slice(source, cursor, spans[0].start);
    ReconstructIsExpected(source, engine, spans[1..], cursor, before);
    ExpectedLength(source, engine, spans[1..], cursor);
    SliceLength(source, cursor, spans[0].start);
  }

  /** An engine that finds no meow file for any interval. */
  function MissingEverywhere(): Engine
  {
    (s: nat, e: nat) => Skipped(MeowMissing("meow_library/processed/meow.wav"))
  }

  /** Three milliseconds of audio with the middle one to be censored and its
      meow missing: the loop emits the first millisecond twice and returns
      four milliseconds. */
  lemma SkipRepeatsExample()
    ensures Reconstruct([1, 2, 3], MissingEverywhere(), [Span(1, 2)], 0, []) == Done([1, 1, 2, 3])
  {
    var source: Segment := [1, 2, 3];
    assert Slice(source, 0, 1) == [1];
    assert Tail(source, 0) == source;
  }

  /** The same three milliseconds run through the agent's own engine, with
      a word from 0.0015 s to 0.0019 s: both ends truncate to 1 ms, so the
      duration check skips it after the first millisecond was appended, and
      that millisecond is emitted twice, whatever the database holds. */
  lemma NoDurationRepeatsExample(ctx: Context)
    ensures Reconstruct([1, 2, 3], EngineOf(ctx), Spans([Word("cat", 0.0015, 0.0019)]), 0, []) == Done([1, 1, 2, 3])
  {
    var source: Segment := [1, 2, 3];
    assert SpanOf(Word("cat", 0.0015, 0.0019)) == Span(1, 1);
    assert EngineOf(ctx)(1, 1) == Skipped(NoDuration);
    assert Slice(source, 0, 1) == [1];
    assert Tail(source, 0) == source;
  }

  // ---------------------------------------------------------------------
  // Corrected

  /** The loop with the skip policy corrected: a skipped interval appends
      nothing and leaves the cursor, so its original audio is copied once by
      the next append. */
  function ReconstructFixed(source: Segment, engine: Engine, spans: seq<Span>, cursor: nat, out: Segment): (r: Spliced)
    ensures r.Done? ==> |out| <= |r.audio| && r.audio[..|out|] == out
    decreases |spans|
  {
    if |spans| == 0 then Done(out + Tail(source, cursor))
    else
      var sp := spans[0];
      var op := engine(sp.start, sp.end);
      if op.Crashed? then Raised(op.crash)
      else if op.Skipped? then ReconstructFixed(source, engine, spans[1..], cursor, out)
      else
        var after := out + Slice(source, cursor, sp.start) + op.segment;
        assert after[..|out|] == out;
        ReconstructFixed(source, engine, spans[1..], sp.end, after)
  }

  lemma NoCrashTail(engine: Engine, spans: seq<Span>)
    requires |spans| > 0 && NoCrash(engine, spans)
    ensures NoCrash(engine, spans[1..])
  {
    forall i | 0 <= i < |spans[1..]|
      ensures !engine(spans[1..][i].start, spans[1..][i].end).Crashed?
    {
      assert spans[1..][i] == spans[i + 1];
    }
  }

  /** With the corrected policy the output is as long as the source whatever
      is skipped, as long as nothing raises. */
  lemma {:induction false} FixedPreservesLength(source: Segment, engine: Engine, spans: seq<Span>, cursor: nat, out: Segment)
    requires cursor <= |source|
    requires FitsSpan(engine) && Chain(spans, cursor, |source|) && NoCrash(engine, spans)
    ensures ReconstructFixed(source, engine, spans, cursor, out).Done?
    ensures |ReconstructFixed(source, engine, spans, cursor, out).audio| == |out| + |source| - cursor
    decreases |spans|
  {
    if |spans| == 0 {
      SliceLength(source, cursor, |source|);
    } else {
      var s, e := spans[0].start, spans[0].end;
      NoCrashTail(engine, spans);
      if engine(s, e).Skipped? {
        ChainFromEarlier(spans[1..], cursor, e, |source|);
        FixedPreservesLength(source, engine, spans[1..], cursor, out);
      } else {
        SliceLength(source, cursor, s);
        FixedPreservesLength(source, engine, spans[1..], e, out + Slice(source, cursor, s) + engine(s, e).segment);
      }
    }
  }

  /** With the corrected policy a run in which every interval is skipped
      leaves the audio exactly as it was. */
  lemma {:induction false} FixedAllSkippedKeepsSource(source: Segment, engine: Engine, spans: seq<Span>, cursor: nat, out: Segment)
    requires AllSkipped(engine, spans)
    ensures ReconstructFixed(source, engine, spans, cursor, out) == Done(out + Tail(source, cursor))
    decreases |spans|
  {
    if |spans| > 0 {
      assert engine(spans[0].start, spans[0].end).Skipped?;
      assert AllSkipped(engine, spans[1..]) by {
        forall i | 0 <= i < |spans[1..]|
          ensures engine(spans[1..][i].start, spans[1..][i].end).Skipped?
        {
          assert spans[1..][i] == spans[i + 1];
        }
      }
      FixedAllSkippedKeepsSource(source, engine, spans[1..], cursor, out);
    }
  }

  /** The correction changes nothing when no interval is skipped, so what is
      proved about the loop for fully replaced runs holds for both. */
  lemma {:induction false} FixedAgreesWithoutSkips(source: Segment, engine: Engine, spans: seq<Span>, cursor: nat, out: Segment)
    requires AllReplaced(engine, spans)
    ensures ReconstructFixed(source, engine, spans, cursor, out) == Reconstruct(source, engine, spans, cursor, out)
    decreases |spans|
  {
    if |spans| > 0 {
      var s, e := spans[0].start, spans[0].end;
      AllReplacedTail(engine, spans);
      FixedAgreesWithoutSkips(source, engine, spans[1..], e, out + Slice(source, cursor, s) + engine(s, e).segment);
    }
  }

  /** Under either policy the loop raises exactly when some interval does:
      a skip never stops it. */
  lemma {:induction false} FixedRaisesIffCrash(source: Segment, engine: Engine, spans: seq<Span>, cursor: nat, out: Segment)
    ensures ReconstructFixed(source, engine, spans, cursor, out).Raised? <==> SomeCrash(engine, spans)
    decreases |spans|
  {
    if |spans| > 0 {
      var s, e := spans[0].start, spans[0].end;
      var op := engine(s, e);
      if !op.Crashed? {
        var next := if op.Skipped? then cursor else e;
        var nextOut := if op.Skipped? then out else out + Slice(source, cursor, s) + op.segment;
        FixedRaisesIffCrash(source, engine, spans[1..], next, nextOut);
        SomeCrashTail(engine, spans);
      } else {
        assert engine(spans[0].start, spans[0].end).Crashed?;
      }
    }
  }

  /** The as-written loop raises exactly when some interval does too. */
  lemma {:induction false} RaisesIffCrash(source: Segment, engine: Engine, spans: seq<Span>, cursor: nat, out: Segment)
    ensures Reconstruct(source, engine, spans, cursor, out).Raised? <==> SomeCrash(engine, spans)
    decreases |spans|
  {
    if |spans| > 0 {
      var s, e := spans[0].start, spans[0].end;
      var op := engine(s, e);
      var before := out + Slice(source, cursor, s);
      if !op.Crashed? {
        var next := if op.Skipped? then cursor else e;
        var nextOut := if op.Skipped? then before else before + op.segment;
        RaisesIffCrash(source, engine, spans[1..], next, nextOut);
        SomeCrashTail(engine, spans);
      } else {
        assert engine(spans[0].start, spans[0].end).Crashed?;
      }
    }
  }

  /** When the first span does not raise, some span raises exactly when one
      of the others does. */
  lemma SomeCrashTail(engine: Engine, spans: seq<Span>)
    requires |spans| > 0 && !engine(spans[0].start, spans[0].end).Crashed?
    ensures SomeCrash(engine, spans) <==> SomeCrash(engine, spans[1..])
  {
    if SomeCrash(engine, spans) {
      var i :| 0 <= i < |spans| && engine(spans[i].start, spans[i].end).Crashed?;
      assert spans[1..][i - 1] == spans[i];
    }
    if SomeCrash(engine, spans[1..]) {
      var i :| 0 <= i < |spans[1..]| && engine(spans[1..][i].start, spans[1..][i].end).Crashed?;
      assert spans[i + 1] == spans[1..][i];
    }
  }
}

=== FILE: sorting.dfy ===
/** Python's `list.sort(key=...)`: a stable sort by a real-valued key,
    modelled as insertion sort. */
module Sorting {

  predicate SortedBy<T>(xs: seq<T>, key: T -> real)
  {
    forall i, j :: 0 <= i < j < |xs| ==> key(xs[i]) <= key(xs[j])
  }

  /** The elements whose key is `k`, in their order in `xs`. Two sequences
      with the same `WithKey` for every `k` list tied elements in the same
      relative order. */
  function WithKey<T>(xs: seq<T>, key: T -> real, k: real): seq<T>
  {
    if |xs| == 0 then []
    else (if key(xs[0]) == k then [xs[0]] else []) + WithKey(xs[1..], key, k)
  }

  /** Put `x` before the first element whose key is not smaller. */
  function Insert<T>(x: T, ys: seq<T>, key: T -> real): (r: seq<T>)
    ensures |r| == |ys| + 1
    ensures r[0] == x || (|ys| > 0 && r[0] == ys[0])
  {
    if |ys| == 0 || key(x) <= key(ys[0]) then [x] + ys
    else [ys[0]] + Insert(x, ys[1..], key)
  }

  /** Inserting adds `x` and loses nothing. */
  lemma {:induction false} InsertPermutes<T>(x: T, ys: seq<T>, key: T -> real)
    ensures multiset(Insert(x, ys, key)) == multiset(ys) + multiset{x}
  {
    if |ys| > 0 && key(x) > key(ys[0]) {
      InsertPermutes(x, ys[1..], key);
      assert ys == [ys[0]] + ys[1..];
    }
  }

  /** Inserting into a sorted sequence keeps it sorted. */
  lemma {:induction false} InsertSorted<T>(x: T, ys: seq<T>, key: T -> real)
    requires SortedBy(ys, key)
    ensures SortedBy(Insert(x, ys, key), key)
  {
    if |ys| > 0 && key(x) > key(ys[0]) {
      var rest := Insert(x, ys[1..], key);
      assert SortedBy(ys[1..], key);
      InsertSorted(x, ys[1..], key);
      assert key(ys[0]) <= key(rest[0]);
      ConsSorted(ys[0], rest, key);
    }
  }

  /** Putting an element no larger than the head in front keeps a sequence sorted. */
  lemma ConsSorted<T>(a: T, xs: seq<T>, key: T -> real)
    requires SortedBy(xs, key)
    requires |xs| > 0 ==> key(a) <= key(xs[0])
    ensures SortedBy([a] + xs, key)
  {
  }

  /** `xs.sort(key=key)` as a value: sorted, and a rearrangement of `xs`. */
  function SortBy<T>(xs: seq<T>, key: T -> real): (r: seq<T>)
    ensures SortedBy(r, key)
    ensures multiset(r) == multiset(xs)
    ensures |r| == |xs|
  {
    if |xs| == 0 then []
    else
      var rest := SortBy(xs[1..], key);
      assert xs == [xs[0]] + xs[1..];
      InsertPermutes(xs[0], rest, key);
      InsertSorted(xs[0], rest, key);
      Insert(xs[0], rest, key)
  }

  lemma {:induction false} InsertKeepsTies<T>(x: T, ys: seq<T>, key: T -> real, k: real)
    ensures WithKey(Insert(x, ys, key), key, k) == (if key(x) == k then [x] else []) + WithKey(ys, key, k)
  {
    if |ys| > 0 && key(x) > key(ys[0]) {
      InsertKeepsTies(x, ys[1..], key, k);
      var rest := Insert(x, ys[1..], key);
      var r := [ys[0]] + rest;
      assert Insert(x, ys, key) == r;
      assert r[0] == ys[0] && r[1..] == rest;
      assert WithKey(r, key, k) == (if key(ys[0]) == k then [ys[0]] else []) + WithKey(rest, key, k);
    }
  }

  /** The sort is stable: elements with equal keys keep their relative order. */
  lemma {:induction false} SortIsStable<T>(xs: seq<T>, key: T -> real, k: real)
    ensures WithKey(SortBy(xs, key), key, k) == WithKey(xs, key, k)
  {
    if |xs| > 0 {
      SortIsStable(xs[1..], key, k);
      InsertKeepsTies(xs[0], SortBy(xs[1..], key), key, k);
    }
  }

  /** A list that is already sorted is left as it is. */
  lemma {:induction false} SortSortedIsIdentity<T>(xs: seq<T>, key: T -> real)
    requires SortedBy(xs, key)
    ensures SortBy(xs, key) == xs
  {
    if |xs| > 0 {
      assert SortedBy(xs[1..], key);
      SortSortedIsIdentity(xs[1..], key);
      if |xs| > 1 {
        assert key(xs[0]) <= key(xs[1..][0]);
      }
    }
  }
}

=== FILE: surgeon.dfy ===
/** The audio surgeon: `splice_audio` rebuilds a recording with every censor
    interval replaced by a library meow of exactly the interval's length.

    The filesystem is a map from path to content; the pydub operations with
    no model here (`ratio_to_db`, `apply_gain`, `speedup`) are the fields of
    `Dsp`. A Python exception that escapes `splice_audio` is the `Uncaught`
    outcome; the function's own `return ""` paths are `Failed`. */
module Surgeon {

  import opened Wrappers
  import opened Pydub
  import opened Paths
  import opened Catalog
  import opened Selector
  import opened Sorting
  import opened DataModels

  /** pydub operations treated as black boxes: `toDb` turns a peak amplitude
      into dBFS, `applyGain` is `AudioSegment.apply_gain`, and `speedup` is
      `pydub.effects.speedup` with 150 ms chunks and 25 ms crossfades (None
      when it raises because the segment is too short for those settings). */
  datatype Dsp = Dsp(
    toDb: nat -> real,
    applyGain: (Segment, Level) -> Segment,
    speedup: (Segment, real) -> Option<Segment>)

  /** What a path holds: decodable audio, a parsable CSV table (the names in
      its header row, and its rows read as meow database rows), or something
      that makes the loader raise. */
  datatype Content = AudioFile(segment: Segment) | CsvFile(columns: set<string>, rows: seq<Row>) | Unreadable

  /** The database columns the splicer reads (lines 85 and 89). */
  const DurationColumn: string := "duration_seconds"
  const PathColumn: string := "path"

  type Files = map<string, Content>

  // ---------------------------------------------------------------------
  // Time conversion

  /** `int(t * 1000)`: seconds to whole milliseconds, truncating. */
  function ToMs(t: Seconds): (ms: nat)
    ensures ms as real <= t * 1000.0 < ms as real + 1.0
  {
    (t * 1000.0).Floor
  }

  /** Later times never map to earlier milliseconds, so sorting by seconds
      also orders the millisecond bounds. */
  lemma ToMsMonotone(a: Seconds, b: Seconds)
    requires a <= b
    ensures ToMs(a) <= ToMs(b)
  {
    assert (a * 1000.0).Floor as real <= a * 1000.0 <= b * 1000.0;
  }

  function StartMs(w: Word): nat { ToMs(w.startTime) }

  function EndMs(w: Word): nat { ToMs(w.endTime) }

  /** An interval in whole milliseconds, as lines 69-70 compute it. */
  datatype Span = Span(start: nat, end: nat)

  /** The interval of a word: both ends truncated to whole milliseconds, so
      a word that does not end before it starts gives a span that does not
      either. */
  function SpanOf(w: Word): (r: Span)
    ensures r.start as real <= w.startTime * 1000.0 < r.start as real + 1.0
    ensures r.end as real <= w.endTime * 1000.0 < r.end as real + 1.0
    ensures w.startTime <= w.endTime ==> r.start <= r.end
  {
    Span(StartMs(w), EndMs(w))
  }

  /** The intervals in milliseconds, one per word and in the same order;
      words sorted by start time give spans sorted by start. */
  function Spans(intervals: seq<Word>): (r: seq<Span>)
    ensures |r| == |intervals|
    ensures forall i :: 0 <= i < |intervals| ==> r[i] == SpanOf(intervals[i])
    ensures SortedBy(intervals, ByStart) ==> forall i, j :: 0 <= i < j < |r| ==> r[i].start <= r[j].start
  {
    seq(|intervals|, i requires 0 <= i < |intervals| => SpanOf(intervals[i]))
  }

  // ---------------------------------------------------------------------
  // Loudness normalisation (lines 99-113)

  /** The gain to apply to `meow`, or None when `original` is silent to pydub
      (`dBFS == -inf`) and the meow is to be used as it is. */
  function GainFor(original: Segment, meow: Segment, toDb: nat -> real): (g: Option<Level>)
    ensures g.None? <==> IsRmsSilent(original)
    ensures g.Some? ==> !g.value.NegInf?
    ensures g.Some? && Peak(meow) > 0 ==> g.value == Db(toDb(Peak(original)) - toDb(Peak(meow)))
    ensures g.Some? && Peak(meow) == 0 ==> g.value.PosInf?
  {
    if IsRmsSilent(original) then None
    else
      AudibleHasPeak(original);
      Some(Minus(MaxDbfs(original, toDb), MaxDbfs(meow, toDb)))
  }

  /** The meow with its peak matched to the excised word's peak. */
  function Normalize(meow: Segment, original: Segment, dsp: Dsp): (r: Segment)
    ensures IsRmsSilent(original) ==> r == meow
  {
    match GainFor(original, meow, dsp.toDb)
    case None => meow
    case Some(gain) => dsp.applyGain(meow, gain)
  }

  // ---------------------------------------------------------------------
  // Tempo adaptation (lines 115-126)

  /** The playback speed handed to `speedup`: the meow's length over the
      needed length, clamped to [0.5, 2.0]. */
  function PlaybackSpeed(meowMs: nat, neededMs: nat): (speed: real)
    requires meowMs > 0 && neededMs > 0
    ensures 0.5 <= speed <= 2.0
    ensures var ratio := meowMs as real / neededMs as real;
      && (0.5 <= ratio <= 2.0 <==> speed == ratio)
      && (ratio < 0.5 ==> speed == 0.5)
      && (ratio > 2.0 ==> speed == 2.0)
  {
    var meowSeconds := meowMs as real / 1000.0;
    var neededSeconds := neededMs as real / 1000.0;
    var ratio := meowSeconds / neededSeconds;
    assert ratio == meowMs as real / neededMs as real;
    var capped := if ratio < 2.0 then ratio else 2.0;
    if 0.5 > capped then 0.5 else capped
  }

  /** The replacement for an interval of `neededMs` milliseconds: a silent
      bed of exactly that length with the stretched meow overlaid from its
      start. An empty meow leaves the bed silent; None when `speedup` raises. */
  function FitToDuration(normalized: Segment, neededMs: nat, dsp: Dsp): (r: Option<Segment>)
    requires neededMs > 0
    ensures r.Some? ==> |r.value| == neededMs
    ensures |normalized| == 0 ==> r == Some(Silent(neededMs))
    ensures r.None? <==> |normalized| > 0 && dsp.speedup(normalized, PlaybackSpeed(|normalized|, neededMs)).None?
    ensures |normalized| > 0 && r.Some? ==>
      var stretched := dsp.speedup(normalized, PlaybackSpeed(|normalized|, neededMs)).value;
      r.value == if |stretched| >= neededMs then stretched[..neededMs] else stretched + Silent(neededMs - |stretched|)
  {
    var bed := Silent(neededMs);
    if |normalized| == 0 then Some(bed)
    else
      match dsp.speedup(normalized, PlaybackSpeed(|normalized|, neededMs))
      case None => None
      case Some(stretched) =>
        OverlayOntoSilence(neededMs, stretched);
        Some(Overlay(bed, stretched))
  }

  // ---------------------------------------------------------------------
  // One censor interval (lines 69-128)

  /** Why an interval gets no replacement while the loop goes on. */
  datatype Skip = NoDuration | MeowMissing(path: string)

  /** An exception that escapes `splice_audio`. */
  datatype Crash =
    | MissingColumn(column: string)  // KeyError on a column the table lacks
    | EmptyDatabase            // idxmin on an empty table
    | MeowUndecodable(path: string)
    | SpeedupFailed(path: string)

  datatype Surgery = Replaced(segment: Segment) | Skipped(skip: Skip) | Crashed(crash: Crash)

  /** Everything one call works with after loading: the source audio, the
      database rows, the processed-library directory and the files. */
  datatype Context = Context(source: Segment, columns: set<string>, db: seq<Row>, libraryPath: string, files: Files, dsp: Dsp)

  /** The library file chosen for an interval of `neededMs` milliseconds:
      the nearest row's file name resolved in the processed-library
      directory, or None when the database is empty. */
  function MeowPathFor(ctx: Context, neededMs: nat): (r: Option<string>)
    ensures r.None? <==> |ctx.db| == 0
    ensures r.Some? ==> exists k: nat :: (IsFirstNearest(ctx.db, neededMs as real / 1000.0, k)
      && r.value == Join(ctx.libraryPath, Basename(ctx.db[k].path)))
  {
    match Nearest(ctx.db, neededMs as real / 1000.0)
    case None => None
    case Some(k) => Some(Join(ctx.libraryPath, Basename(ctx.db[k].path)))
  }

  /** The work on one interval once it is converted to milliseconds. The
      table is consulted only for an interval of positive length: first its
      duration column (line 85), then its rows (line 86), then the path
      column of the chosen row (line 89). */
  function Operate(ctx: Context, startMs: nat, endMs: nat): (r: Surgery)
    ensures endMs <= startMs <==> r == Skipped(NoDuration)
    ensures r.Replaced? ==> |r.segment| == endMs - startMs
    ensures r.Replaced? ==> DurationColumn in ctx.columns && PathColumn in ctx.columns && |ctx.db| > 0
    ensures endMs > startMs && DurationColumn !in ctx.columns ==> r == Crashed(MissingColumn(DurationColumn))
    ensures endMs > startMs && DurationColumn in ctx.columns && |ctx.db| == 0 ==> r == Crashed(EmptyDatabase)
    ensures endMs > startMs && DurationColumn in ctx.columns && |ctx.db| > 0 && PathColumn !in ctx.columns ==>
      r == Crashed(MissingColumn(PathColumn))
    ensures endMs > startMs && DurationColumn in ctx.columns && PathColumn in ctx.columns && |ctx.db| > 0 ==>
      var path := MeowPathFor(ctx, endMs - startMs).value;
      && (r.Replaced? ==> path in ctx.files && ctx.files[path].AudioFile?)
      && (r.Skipped? <==> path !in ctx.files)
      && (r.Skipped? ==> r.skip == MeowMissing(path))
  {
    if endMs <= startMs then Skipped(NoDuration)
    else if DurationColumn !in ctx.columns then Crashed(MissingColumn(DurationColumn))
    else
      match MeowPathFor(ctx, endMs - startMs)
      case None => Crashed(EmptyDatabase)
      case Some(path) =>
        if PathColumn !in ctx.columns then Crashed(MissingColumn(PathColumn))
        else OperateOn(ctx, path, startMs, endMs)
  }

  /** Lines 92-128 once the meow file is chosen: a missing file skips the
      interval, a file that does not decode raises. */
  function OperateOn(ctx: Context, path: string, startMs: nat, endMs: nat): (r: Surgery)
    requires startMs < endMs
    ensures r.Replaced? ==> |r.segment| == endMs - startMs && path in ctx.files && ctx.files[path].AudioFile?
    ensures r.Skipped? <==> path !in ctx.files
    ensures r.Skipped? ==> r.skip == MeowMissing(path)
    ensures path in ctx.files && !ctx.files[path].AudioFile? ==> r == Crashed(MeowUndecodable(path))
  {
    if path !in ctx.files then Skipped(MeowMissing(path))
    else
      match ctx.files[path]
      case AudioFile(meow) => Refit(ctx, meow, path, startMs, endMs)
      case _ => Crashed(MeowUndecodable(path))
  }

  /** Lines 99-126 for a decoded meow: match its peak to the excised word,
      then fit it to the interval; a `speedup` that raises escapes. */
  function Refit(ctx: Context, meow: Segment, path: string, startMs: nat, endMs: nat): (r: Surgery)
    requires startMs < endMs
    ensures r.Replaced? || r == Crashed(SpeedupFailed(path))
    ensures r.Replaced? ==> |r.segment| == endMs - startMs
    ensures var n := Normalize(meow, Slice(ctx.source, startMs, endMs), ctx.dsp);
      r.Crashed? <==> |n| > 0 && ctx.dsp.speedup(n, PlaybackSpeed(|n|, endMs - startMs)).None?
    ensures IsRmsSilent(Slice(ctx.source, startMs, endMs)) && |meow| == 0 ==>
      r == Replaced(Silent(endMs - startMs))
  {
    var word := Slice(ctx.source, startMs, endMs);
    var normalized := Normalize(meow, word, ctx.dsp);
    match FitToDuration(normalized, endMs - startMs, ctx.dsp)
    case None => Crashed(SpeedupFailed(path))
    case Some(replacement) => Replaced(replacement)
  }

  // ---------------------------------------------------------------------
  // The reconstruction loop (lines 62-134)

  datatype Spliced = Done(audio: Segment) | Raised(why: Crash)

  /** The per-interval work as a value: millisecond bounds to surgery. */
  type Engine = (nat, nat) -> Surgery

  /** The engine `splice_audio` runs on every interval. */
  function EngineOf(ctx: Context): Engine
  {
    (startMs: nat, endMs: nat) => Operate(ctx, startMs, endMs)
  }

  /** Every replacement an engine produces spans exactly its interval. */
  ghost predicate FitsSpan(engine: Engine)
  {
    forall s: nat, e: nat :: engine(s, e).Replaced? ==> |engine(s, e).segment| == e - s
  }

  lemma EngineFitsSpan(ctx: Context)
    ensures FitsSpan(EngineOf(ctx))
  {
  }

  /** The loop over the sorted intervals from cursor `cursor` with output so
      far `out`: each interval appends the untouched audio before it, then
      its replacement, and moves the cursor to its end; a skipped interval
      has its preceding audio appended but leaves the cursor where it was.
      The audio after the last cursor closes the output. */
  function Reconstruct(source: Segment, engine: Engine, spans: seq<Span>, cursor: nat, out: Segment): (r: Spliced)
    ensures r.Done? ==> |out| <= |r.audio| && r.audio[..|out|] == out
    decreases |spans|
  {
    if |spans| == 0 then Done(out + Tail(source, cursor))
    else
      var sp := spans[0];
      var before := out + Slice(source, cursor, sp.start);
      assert before[..|out|] == out;
      var op := engine(sp.start, sp.end);
      if op.Crashed? then Raised(op.crash)
      else if op.Skipped? then Reconstruct(source, engine, spans[1..], cursor, before)
      else
        var after := before + op.segment;
        assert after[..|out|] == out;
        Reconstruct(source, engine, spans[1..], sp.end, after)
  }

  // ---------------------------------------------------------------------
  // The entry point (lines 27-149)

  const OutputSuffix: string := "_censored.wav"

  /** The processed-library directory: `meow_library/processed` under the
      project root. */
  function MeowLibraryPath(projectRoot: string): (r: string)
    ensures Basename(r) == "processed"
    ensures |projectRoot| <= |r| && r[..|projectRoot|] == projectRoot
  {
    var parent := Join(projectRoot, "meow_library");
    var r := Join(parent, "processed");
    assert r[..|projectRoot|] == r[..|parent|][..|projectRoot|];
    r
  }

  /** Where the censored audio is exported: a file directly under the
      project root, named after the source's stem with `_censored.wav`
      appended. */
  function OutputPath(projectRoot: string, audioPath: string): (r: string)
    ensures Basename(r) == Stem(Basename(audioPath)) + OutputSuffix
    ensures |projectRoot| <= |r| && r[..|projectRoot|] == projectRoot
  {
    var stem := Stem(Basename(audioPath));
    assert '/' !in OutputSuffix;
    NoSeparatorInConcat(stem, OutputSuffix);
    Join(projectRoot, stem + OutputSuffix)
  }

  /** Why `splice_audio` returns "". */
  datatype Fatal = SourceMissing | DatabaseMissing | LoadFailed | ExportFailed

  datatype Outcome = Saved(path: string, audio: Segment) | Failed(fatal: Fatal) | Uncaught(crash: Crash)

  /** The call's result, plus the caller's interval list afterwards: it is
      sorted in place once both files have loaded. */
  datatype Call = Call(outcome: Outcome, censorTimesAfter: seq<Word>)

  /** The environment of one call: the project root the agent resolves paths
      against, the files, whether the export succeeds, and the black boxes. */
  datatype Environment = Environment(projectRoot: string, files: Files, exportSucceeds: bool, dsp: Dsp)

  /** The string `splice_audio` returns, for the outcomes that return. */
  function ReturnedPath(o: Outcome): string
    requires !o.Uncaught?
  {
    if o.Saved? then o.path else ""
  }

  function ByStart(w: Word): real { w.startTime }

  /** Both input files exist and load. */
  predicate Loads(env: Environment, audioPath: string, dbPath: string)
  {
    && audioPath in env.files && env.files[audioPath].AudioFile?
    && dbPath in env.files && env.files[dbPath].CsvFile?
  }

  /** The context the loop runs in once both files have loaded. */
  function ContextOf(env: Environment, audioPath: string, dbPath: string): Context
    requires Loads(env, audioPath, dbPath)
  {
    Context(env.files[audioPath].segment, env.files[dbPath].columns, env.files[dbPath].rows,
            MeowLibraryPath(env.projectRoot), env.files, env.dsp)
  }

  /** `splice_audio(audio_path, censor_times, meow_db_path)`. */
  function SpliceAudio(env: Environment, audioPath: string, censorTimes: seq<Word>, dbPath: string): (c: Call)
    ensures audioPath !in env.files ==> c == Call(Failed(SourceMissing), censorTimes)
    ensures audioPath in env.files && dbPath !in env.files ==> c == Call(Failed(DatabaseMissing), censorTimes)
    ensures c.outcome.Saved? ==> Loads(env, audioPath, dbPath) && env.exportSucceeds
    ensures c.outcome.Saved? ==> c.outcome.path == OutputPath(env.projectRoot, audioPath)
    ensures Loads(env, audioPath, dbPath) ==>
      SortedBy(c.censorTimesAfter, ByStart) && multiset(c.censorTimesAfter) == multiset(censorTimes)
    ensures !Loads(env, audioPath, dbPath) ==> c.censorTimesAfter == censorTimes && c.outcome.Failed?
    ensures !c.outcome.Uncaught? ==> (ReturnedPath(c.outcome) == "" <==> c.outcome.Failed?)
    ensures Loads(env, audioPath, dbPath) && env.exportSucceeds && censorTimes == [] ==>
      c.outcome == Saved(OutputPath(env.projectRoot, audioPath), env.files[audioPath].segment)
  {
    if audioPath !in env.files then Call(Failed(SourceMissing), censorTimes)
    else if dbPath !in env.files then Call(Failed(DatabaseMissing), censorTimes)
    else if !Loads(env, audioPath, dbPath) then Call(Failed(LoadFailed), censorTimes)
    else
      var sorted := SortBy(censorTimes, ByStart);
      var ctx := ContextOf(env, audioPath, dbPath);
      TailFromStart(ctx.source);
      match Reconstruct(ctx.source, EngineOf(ctx), Spans(sorted), 0, [])
      case Raised(why) => Call(Uncaught(why), sorted)
      case Done(audio) =>
        if env.exportSucceeds then Call(Saved(OutputPath(env.projectRoot, audioPath), audio), sorted)
        else Call(Failed(ExportFailed), sorted)
  }
}

=== FILE: wrappers.dfy ===
/** The optional value used wherever a Python call returns nothing or raises. */
module Wrappers {

  datatype Option<+T> = None | Some(value: T)
}
